=== FILE: README.md ===
# Citizen proposals: the decision logic

A web application lets citizens submit proposals for public policy, sorted
into sectors and subcategories, and lists the proposals of the community.
This project models the parts of it that make decisions, with the database
and the browser left abstract:

- **The proposal list** (`ProposalList`). This is the pure derivation from
  the loaded proposals and the user's criteria (search text, sector, sort
  key) to the list of cards shown. It covers the case-insensitive search
  over four nullable fields, the exact sector filter, the three-way sort
  whose default branch also takes unknown keys, `clearFilters`,
  `hasActiveFilters` and `truncateText`. The sort is the stable
  `Array.prototype.sort`, modelled as a stable insertion sort.
- **The submission action** (`Submission`). This covers:
  - phone normalisation;
  - the required-field check;
  - finding or creating the citizen keyed by the phone;
  - the proposal insert;
  - turning failures into a `{success, message}` result.

  The database is a `Store`: a map from phone to citizen plus the sequence
  of proposals. A `Faults` record decides which gateway call fails and with
  what error.
- **The proposal card** (`ProposalCard`). This covers the fallback texts
  for missing joins, the 150-character collapsed description, the
  sector colour table with its gray default, the three-day "new" badge and
  the expand toggle. The clock is a parameter.
- **The proposal form** (`ProposalForm`). This covers the selected sector,
  the subcategory options it unlocks (through `parseInt`), the character
  count, and what a submission's result does to the form.
- **The proposal sheet** (`ProposalModal`). This covers `openModal`, with
  the quirk that the falsy id 0 clears the preselection; closing through
  `onOpenChange`; the provider guard of `useProposalModal`; and how the
  preselection reaches the form mounted in the sheet.

Supporting modules:

- `Wrappers` holds `Option` and `Result`.
- `Seqs` holds an order-preserving `Filter` with its multiset and
  concatenation laws, and `Reverse`.
- `Text` holds the JavaScript string primitives the components use:
  - `toLowerCase`;
  - `includes`;
  - the `\D` replacement;
  - `String(n)` for integers;
  - `parseInt(s, 10)`, with `None` standing for `NaN`;
  - a lexicographic title comparator.
- `Types` holds the `ProposalWithDetails` record.

`Submission.Valid` checks neither `region_id` nor trimmed white space: a
form without a region passes, and a name of three spaces counts as filled.

## Model

| member | source | states |
|---|---|---|
| `Types.SectorNameOf` | src/types/index.ts:12-17 | A record has a sector name exactly when both its subcategory and that subcategory's sector are present, and the name is the sector's. |
| `ProposalList.InitialState` | src/app/propostas/ProposalsClientSection.tsx:20-29 | Absent props start as search '', sector '' and sort 'recent'; given props are taken as they are. |
| `ProposalList.Truncate` | src/app/propostas/ProposalsClientSection.tsx:31-34 | Text of at most `maxLength` characters is returned unchanged; longer text becomes its first `maxLength` characters followed by '...'. |
| `ProposalList.TruncateBounded` | src/app/propostas/ProposalsClientSection.tsx:31-34 | The result is never longer than `maxLength + 3` and always starts with the text's own prefix. |
| `ProposalList.SectorSelectValue` | src/app/propostas/ProposalsClientSection.tsx:92 | The select never shows an empty value: no selection shows as 'all'. |
| `ProposalList.OnSectorValueChange` | src/app/propostas/ProposalsClientSection.tsx:93 | Choosing 'all' clears the sector; any other value is stored as it is. |
| `ProposalList.SectorSelectRoundTrip` | src/app/propostas/ProposalsClientSection.tsx:92-93 | Showing a selection and reading it back returns it, except that a sector literally named 'all' reads back as no sector. |
| `ProposalList.MatchesSearch` | src/app/propostas/ProposalsClientSection.tsx:41-45 | The four-field test itself; what it means is stated by `ProposalList.MatchesSearchIffOccurs`. |
| `ProposalList.MatchesSearchIffOccurs` | src/app/propostas/ProposalsClientSection.tsx:41-45 | A record matches exactly when the term occurs at some position of the lower-cased title, of the lower-cased description if that is non-empty, or of the lower-cased name of a present citizen or subcategory. |
| `ProposalList.SearchFilter` | src/app/propostas/ProposalsClientSection.tsx:39-46 | An empty search keeps the list as it is. A non-empty one keeps exactly the records whose lower-cased title, non-empty description, citizen name or subcategory name contains the lower-cased term, each as often as it occurs. A null field never matches. |
| `ProposalList.InSector` | src/app/propostas/ProposalsClientSection.tsx:49 | The sector test; what it means is stated by `ProposalList.InSectorIff`. |
| `ProposalList.InSectorIff` | src/app/propostas/ProposalsClientSection.tsx:49 | A record is in a sector exactly when its subcategory and that subcategory's sector are present and the sector's name equals the selection. |
| `ProposalList.SectorFilter` | src/app/propostas/ProposalsClientSection.tsx:48-50 | An empty sector keeps the list. A non-empty one keeps exactly the records whose sector name equals it. Records with a null subcategory or sector are dropped. |
| `ProposalList.Filtered` | src/app/propostas/ProposalsClientSection.tsx:37-50 | After both filters, each record occurs as often as in the input if it passes both, and not at all otherwise. |
| `ProposalList.OrderOf` | src/app/propostas/ProposalsClientSection.tsx:52-63 | 'oldest' and 'title' select their own comparators; 'recent' and every other key select newest-first. |
| `ProposalList.Before` | src/app/propostas/ProposalsClientSection.tsx:53-61 | The three comparators: newest first, oldest first, and titles in code-point order. `ProposalList.BeforeTotal` and `ProposalList.BeforeTransitive` state that each is a total preorder. |
| `ProposalList.BeforeTotal` | src/app/propostas/ProposalsClientSection.tsx:52-63 | Every comparator places any two records one way or the other. |
| `ProposalList.BeforeTransitive` | src/app/propostas/ProposalsClientSection.tsx:52-63 | Every comparator is transitive, so the sort has a consistent order to produce. |
| `ProposalList.Insert` | src/app/propostas/ProposalsClientSection.tsx:52-63 | Inserting a record adds exactly that record to the multiset of elements. |
| `ProposalList.SortBy` | src/app/propostas/ProposalsClientSection.tsx:52-63 | Sorting is a permutation: the multiset of records is unchanged. |
| `ProposalList.InsertSorted` | src/app/propostas/ProposalsClientSection.tsx:52-63 | Inserting into a sorted sequence keeps it sorted. |
| `ProposalList.InsertTies` | src/app/propostas/ProposalsClientSection.tsx:52-63 | An inserted record goes ahead of every record tied with it that was already placed. |
| `ProposalList.SortBySorted` | src/app/propostas/ProposalsClientSection.tsx:52-63 | The sort's output is ordered by the chosen comparator for every pair of positions. |
| `ProposalList.SortByStable` | src/app/propostas/ProposalsClientSection.tsx:52-63 | The sort is stable: for every record, the records tied with it appear in the same relative order as in the input. |
| `ProposalList.SortBySortedIdentity` | src/app/propostas/ProposalsClientSection.tsx:52-63 | An input that is already sorted comes out unchanged. |
| `ProposalList.Derive` | src/app/propostas/ProposalsClientSection.tsx:36-66 | The shown list is a reordering of exactly the loaded records that pass the filters. It is built from a copy, so it is a sub-multiset of the input. |
| `ProposalList.DeriveOrdered` | src/app/propostas/ProposalsClientSection.tsx:52-63 | 'oldest' gives non-decreasing `created_at`, 'title' gives titles in comparator order, and 'recent' or any unknown key gives non-increasing `created_at`. Ties keep their input order. |
| `ProposalList.DeriveIdempotent` | src/app/propostas/ProposalsClientSection.tsx:36-66 | Deriving again from the shown list with the same criteria changes nothing. |
| `ProposalList.OldestOrderUnique` | src/app/propostas/ProposalsClientSection.tsx:53-54 | With distinct timestamps there is only one oldest-first arrangement of a multiset of records. |
| `ProposalList.ReverseRecentIsOldest` | src/app/propostas/ProposalsClientSection.tsx:54-61 | A newest-first sequence read backwards is oldest-first. |
| `ProposalList.OldestReversesRecent` | src/app/propostas/ProposalsClientSection.tsx:52-63 | With distinct timestamps, the 'oldest' list is exactly the 'recent' list reversed. |
| `ProposalList.ClearFilters` | src/app/propostas/ProposalsClientSection.tsx:68-72 | The cleared state has no active filter and lets every record through. |
| `ProposalList.HasActiveFilters` | src/app/propostas/ProposalsClientSection.tsx:74 | Any non-empty search, any sector or a sort other than 'recent' is an active filter; `ProposalList.InactiveIffCleared` states both directions. |
| `ProposalList.InactiveIffCleared` | src/app/propostas/ProposalsClientSection.tsx:74 | `hasActiveFilters` is false exactly when search is '', sector is '' and sort is 'recent'. |
| `ProposalList.ClearedShowsAllNewestFirst` | src/app/propostas/ProposalsClientSection.tsx:68-72 | After clearing, every loaded proposal is shown, newest first. |
| `ProposalList.UnknownSortKeyActsAsRecent` | src/app/propostas/ProposalsClientSection.tsx:59-74 | An unrecognised sort key yields the same list as 'recent' but still counts as an active filter. |
| `ProposalList.ExampleSortOrders` | src/app/propostas/ProposalsClientSection.tsx:52-63 | For B (2024-01-02) and A (2024-01-01), 'title' and 'oldest' give A, B and 'recent' gives B, A. |
| `ProposalCard.AuthorName` | src/components/cards/ProposalCard.tsx:30 | The author is the citizen's name, or 'Anônimo' when there is no citizen. An empty name is kept. |
| `ProposalCard.AuthorRegion` | src/components/cards/ProposalCard.tsx:31 | The region name, or 'Não informada' when the citizen or the region is missing. |
| `ProposalCard.SectorName` | src/components/cards/ProposalCard.tsx:32 | The sector name, or 'Setor não informado' when the subcategory or the sector is missing. |
| `ProposalCard.SubcategoryName` | src/components/cards/ProposalCard.tsx:33 | The subcategory name, or 'Tema não informado' when it is missing. |
| `ProposalCard.Description` | src/components/cards/ProposalCard.tsx:35 | The shown description is never empty: an empty one becomes 'Sem descrição fornecida.'. |
| `ProposalCard.IsLongText` | src/components/cards/ProposalCard.tsx:36 | A description is long exactly when it has more than 150 characters; `ProposalCard.DisplayTextCases` states that only long text is cut. |
| `ProposalCard.DisplayText` | src/components/cards/ProposalCard.tsx:36-37 | Expanded, the full description; collapsed, exactly the list's `truncateText` of it at 150 characters. |
| `ProposalCard.DisplayTextCases` | src/components/cards/ProposalCard.tsx:36-37 | Expanded, or not longer than 150, shows the full text. Collapsed, it is the list's `truncateText` at 150: the first 150 characters plus '...' exactly when the text is long. |
| `ProposalCard.SectorColor` | src/components/cards/ProposalCard.tsx:39-48 | Every name outside the five known sectors, including the placeholder and the empty name, gets the gray default. |
| `ProposalCard.SectorColorTable` | src/components/cards/ProposalCard.tsx:40-46 | Each of the five sector names gets its own class. |
| `ProposalCard.MissingSectorIsGray` | src/components/cards/ProposalCard.tsx:32-47 | A card without a sector shows the placeholder name, which is not a known sector, so its badge is gray. |
| `ProposalCard.IsNew` | src/components/cards/ProposalCard.tsx:50 | The three-day test; `ProposalCard.IsNewWindow` states its bound and that it never becomes true again as time advances. |
| `ProposalCard.IsNewWindow` | src/components/cards/ProposalCard.tsx:50 | A card is new exactly when `now - created_at < 259200000`. Once the badge is gone it does not return as time advances. |
| `ProposalCard.ToggleOffered` | src/components/cards/ProposalCard.tsx:138 | The expand button exists exactly for long text; `ProposalCard.PressToggle` states that without it a press changes nothing. |
| `ProposalCard.ToggleLabel` | src/components/cards/ProposalCard.tsx:146 | 'Ver menos' when expanded, 'Ver mais' otherwise; `ProposalCard.PressTwiceRestores` states that each press on long text changes it. |
| `ProposalCard.PressToggle` | src/components/cards/ProposalCard.tsx:138-150 | A press flips `isExpanded` when the text is long. For short text there is no button, so nothing changes. |
| `ProposalCard.PressTwiceRestores` | src/components/cards/ProposalCard.tsx:138-150 | Two presses restore the card, each press changes the label, and short text is always shown in full. |
| `Submission.NormalizePhone` | src/lib/actions/proposal.actions.ts:16 | The phone keeps exactly the digits of the input, each as often as it occurs, and nothing else. A missing phone is ''. |
| `Submission.KeepDigitsFilters` | src/lib/actions/proposal.actions.ts:16 | Removing `\D` is the same as filtering the string by `\d`. |
| `Submission.NormalizePhoneInOrder` | src/lib/actions/proposal.actions.ts:16 | Normalisation keeps the digits in order: it distributes over concatenation and is idempotent. |
| `Submission.SeparatorsIgnored` | src/lib/actions/proposal.actions.ts:16 | Inserting characters that are not digits anywhere in a phone leaves its normalised form unchanged. |
| `Submission.Valid` | src/lib/actions/proposal.actions.ts:23-25 | The required-field check on name, normalised phone, subcategory, title and description; `Submission.ValidIgnoresRegionAndBlanks` states what it does not check. |
| `Submission.ValidIgnoresRegionAndBlanks` | src/lib/actions/proposal.actions.ts:23-25 | The region never changes the verdict, and a name made of three spaces counts as filled. |
| `Submission.ErrorMessage` | src/lib/actions/proposal.actions.ts:73-81 | The reported message is never empty. It is the duplicate-phone text when the error carries the phone-key violation, the error's own message otherwise, and 'Ocorreu um erro inesperado.' for an empty message. |
| `Submission.WrappedDuplicateIsDetected` | src/lib/actions/proposal.actions.ts:51-77 | A gateway message carrying the duplicate-key text is still recognised after the action prefixes it. |
| `Submission.Fail` | src/lib/actions/proposal.actions.ts:73-81 | A caught error reports failure with the mapped message, writes nothing more and revalidates nothing. |
| `Submission.LookupCitizen` | src/lib/actions/proposal.actions.ts:28-36 | The lookup returns the stored citizen's id, the not-found error `PGRST116` for an unknown phone, or the injected error. |
| `Submission.InsertCitizen` | src/lib/actions/proposal.actions.ts:40-53 | The insert stores `{name, phone, region_id}` under a fresh id. The unique phone constraint rejects a phone that is already stored. |
| `Submission.RowFor` | src/lib/actions/proposal.actions.ts:57-62 | The insert payload references the given citizen, carries the form's title and description, and has a subcategory id exactly when `parseInt` of the sent value is a number. |
| `Submission.RowForChosenSubcategory` | src/lib/actions/proposal.actions.ts:59 | A subcategory sent as `String(id)` is stored as exactly `id`. |
| `Submission.InsertProposal` | src/lib/actions/proposal.actions.ts:57-71 | A failed insert reports 'Erro ao registrar proposta: ' plus the error, through the error mapping, with the store untouched and nothing revalidated. A successful one appends exactly the form's row for the citizen, leaves the citizens alone, reports the thank-you message and revalidates '/propostas' and '/'. |
| `Submission.Submit` | src/lib/actions/proposal.actions.ts:11-82 | An invalid form gives the validation message with the store untouched. Success means exactly one proposal was appended for the phone's citizen and '/propostas' and '/' were revalidated. Failure appends and revalidates nothing. Existing citizens are never changed, and the only citizen ever added is the form's phone. |
| `Submission.SubmitExistingCitizen` | src/lib/actions/proposal.actions.ts:28-38 | A known phone adds no citizen. The new proposal references the stored id, and the action succeeds exactly when the proposal insert does. |
| `Submission.SubmitNewCitizen` | src/lib/actions/proposal.actions.ts:40-62 | An unknown phone adds exactly one citizen `{name, phone, region_id}` under a fresh id before the proposal, which references it. |
| `Submission.SubmitNoRollback` | src/lib/actions/proposal.actions.ts:51-66 | When the citizen insert succeeded and the proposal insert failed, the citizen stays, no proposal is added, nothing is revalidated and the result is a failure. |
| `Submission.SubmitLookupFailure` | src/lib/actions/proposal.actions.ts:34-36 | A lookup error other than `PGRST116` gives the mapped failure with no writes. |
| `Submission.SubmitDuplicateRace` | src/lib/actions/proposal.actions.ts:40-51 | When another submission stored the same phone first, the user sees the duplicate-phone message and nothing is written. |
| `Submission.SubmitValidSucceeds` | src/lib/actions/proposal.actions.ts:23-71 | With a healthy gateway every valid form succeeds with the thank-you message and adds one proposal. |
| `Submission.SubmitPreservesWellFormed` | src/lib/actions/proposal.actions.ts:27-66 | Every outcome keeps the store well formed: citizens are keyed by their own phone, ids are unique, and every proposal references a stored citizen. |
| `Submission.SamePhoneSameCitizen` | src/lib/actions/proposal.actions.ts:16-38 | A second submission whose phone normalises to the same digits succeeds, adds no citizen and references the first submission's citizen. |
| `Submission.ExampleRepeatSubmission` | src/lib/actions/proposal.actions.ts:16-38 | A phone in the placeholder's shape "(AA) HHHHH-TTTT" followed by "AA HHHHH TTTT" registers a single citizen, for any digit groups. |
| `Submission.PlaceholderRepeatSubmission` | src/lib/actions/proposal.actions.ts:16-38 | Submitting the placeholder "(61) 99999-9999" and then "61 99999 9999" registers a single citizen. |
| `Text.ContainsIffOccurs` | src/app/propostas/ProposalsClientSection.tsx:42-45 | `includes` holds exactly when the needle occurs at some position of the string. |
| `Text.ToLowerIdempotent` | src/app/propostas/ProposalsClientSection.tsx:40-45 | Lower-casing twice is lower-casing once. |
| `Text.ToLower` | src/app/propostas/ProposalsClientSection.tsx:40-45 | Lower-casing keeps the length and maps each character on its own, so it is idempotent (`Text.ToLowerIdempotent`). |
| `Text.Contains` | src/app/propostas/ProposalsClientSection.tsx:42-45 | `includes`; `Text.ContainsIffOccurs` states that it holds exactly when the needle occurs at some position. |
| `Text.KeepDigits` | src/lib/actions/proposal.actions.ts:16 | The `\D` replacement; `Submission.KeepDigitsFilters` states that it is the filter by `\d`, and `Text.KeepDigitsConcat` that it distributes over concatenation. |
| `Text.KeepDigitsConcat` | src/lib/actions/proposal.actions.ts:16 | Removing non-digits from a concatenation is removing them from each part. |
| `Text.ParseIntIntToString` | src/components/forms/ProposalForm.tsx:79 | `parseInt(String(n), 10)` is `n` for every integer `n`. |
| `Text.ParseInt` | src/components/forms/ProposalForm.tsx:79 | `parseInt(s, 10)`: leading white space and one sign skipped, then the longest digit prefix, or `NaN` when there is none; `Text.ParseIntIntToString` states the round trip. |
| `Text.IntToString` | src/context/ProposalModalContext.tsx:54 | `String(n)`; `Text.NatToStringDenotes` states that the digits denote the number, and `Text.ParseIntIntToString` that it parses back. |
| `Text.NatToStringDenotes` | src/context/ProposalModalContext.tsx:54 | The decimal notation of a natural number is a non-empty string of digits that denotes it. |
| `Text.StrLeqTotal` | src/app/propostas/ProposalsClientSection.tsx:57 | The title comparator orders any two titles. |
| `Text.StrLeqTransitive` | src/app/propostas/ProposalsClientSection.tsx:57 | The title comparator is transitive. |
| `Text.StrLeqAntisymmetric` | src/app/propostas/ProposalsClientSection.tsx:57 | In the code-point stand-in, two titles that compare both ways are equal, so distinct titles never tie. `localeCompare` differs here; see "## Left out". |
| `Text.StrLeq` | src/app/propostas/ProposalsClientSection.tsx:57 | The code-point lexicographic order standing in for `localeCompare`; `Text.StrLeqTotal`, `Text.StrLeqTransitive` and `Text.StrLeqAntisymmetric` state that it is a total order. |
| `Text.KeepDigitsPhoneFormats` | src/components/forms/ProposalForm.tsx:139-140 | The placeholder's "(AA) HHHHH-TTTT" form and the spaced "AA HHHHH TTTT" form keep the same digits. |
| `Text.AllDigitsKept` | src/lib/actions/proposal.actions.ts:16 | A string of digits only is unchanged by the `\D` replacement. |
| `Text.PhoneFormatsOfDigits` | src/lib/actions/proposal.actions.ts:16 | Either phone format built from digit groups keeps exactly the digits of the groups. |
| `Text.PlaceholderDigits` | src/components/forms/ProposalForm.tsx:139 | The placeholder "(61) 99999-9999" keeps the digits "61999999999". |
| `Text.SpacedPlaceholderDigits` | src/components/forms/ProposalForm.tsx:139 | "61 99999 9999" keeps the same digits as the placeholder. |
| `ProposalForm.Init` | src/components/forms/ProposalForm.tsx:64-68 | The form mounts with `initialSectorId` selected, or '' if it is absent. There is no message, the description is empty and the count is 0. |
| `ProposalForm.InitialSectorChanged` | src/components/forms/ProposalForm.tsx:70-74 | A non-empty new `initialSectorId` overwrites the selection; an absent or empty one leaves the state as it is. |
| `ProposalForm.MountEffectIsNoOp` | src/components/forms/ProposalForm.tsx:66-74 | The effect's run on mount changes nothing. |
| `ProposalForm.SelectSector` | src/components/forms/ProposalForm.tsx:168 | Choosing a sector sets the selection and nothing else. |
| `ProposalForm.EditDescription` | src/components/forms/ProposalForm.tsx:100-102 | Editing the description sets the count to its length and changes nothing else. |
| `ProposalForm.SubcategoryOptions` | src/components/forms/ProposalForm.tsx:76-84 | No selection, or one that does not parse, offers nothing. Otherwise the options are exactly the subcategories whose `sector_id` equals the parsed id, none more often than in the input. |
| `ProposalForm.SubcategoryOptionsInOrder` | src/components/forms/ProposalForm.tsx:79 | The options keep the subcategories' original order: the options of a concatenation are the options of each part in turn. |
| `ProposalForm.SelectedIdOffersItsSubcategories` | src/components/forms/ProposalForm.tsx:76-84 | Choosing the option `String(id)` offers exactly the subcategories of sector `id`, also for id 0. |
| `ProposalForm.SubcategoryDisabled` | src/components/forms/ProposalForm.tsx:181 | The subcategory select is disabled exactly when no sector is selected; `ProposalForm.DisabledHasNoOptions` states that it then offers nothing. |
| `ProposalForm.DisabledHasNoOptions` | src/components/forms/ProposalForm.tsx:81-83 | With no sector selected the subcategory select is disabled and has no options. |
| `ProposalForm.BeginSubmit` | src/components/forms/ProposalForm.tsx:87 | The old message is hidden while the action runs, and nothing else changes. |
| `ProposalForm.ApplyResult` | src/components/forms/ProposalForm.tsx:89-97 | The result's message and success are shown. Success clears the selection, the description and the count; failure keeps them. |
| `ProposalForm.HandleAction` | src/components/forms/ProposalForm.tsx:86-98 | For a submission whose description is what the text area holds, the form shows the action's result. The database ends as the action left it, and the form is reset exactly on success. |
| `ProposalForm.InvalidSubmissionKeepsForm` | src/components/forms/ProposalForm.tsx:86-98 | `handleAction` given a submission missing a field shows the validation message, keeps what the user entered, and leaves the database untouched. |
| `ProposalForm.StepKeepsCount` | src/components/forms/ProposalForm.tsx:100-102 | Every event keeps the count equal to the description's length. |
| `ProposalForm.RunKeepsCount` | src/components/forms/ProposalForm.tsx:100-102 | The count equals the description's length after any sequence of events. |
| `ProposalForm.CountAlwaysMatches` | src/components/forms/ProposalForm.tsx:68-102 | From mounting on, the character count always equals the current description's length. |
| `ProposalForm.SuccessResets` | src/components/forms/ProposalForm.tsx:92-95 | Whatever came before, a successful submission leaves a blank form with no sector, a disabled subcategory select and the success message. |
| `ProposalModal.Preselection` | src/context/ProposalModalContext.tsx:54 | There is a preselection exactly when the id is present and not 0. It parses back to the id. |
| `ProposalModal.OpenModal` | src/context/ProposalModalContext.tsx:53-56 | Every call opens the sheet. A non-zero id becomes the preselection; no id or 0 clears it. |
| `ProposalModal.OnOpenChange` | src/context/ProposalModalContext.tsx:61 | The sheet's request sets the open flag and keeps the preselection. |
| `ProposalModal.OpenModalNoStacking` | src/context/ProposalModalContext.tsx:53-56 | A second `openModal` overwrites the first outright. |
| `ProposalModal.CloseKeepsPreselection` | src/context/ProposalModalContext.tsx:54-61 | Closing keeps the last preselection, and opening again without an id clears it. |
| `ProposalModal.UseProposalModal` | src/context/ProposalModalContext.tsx:86-91 | Outside a provider the hook fails with the guard's message; inside one it returns the provider's context. |
| `ProposalModal.Open` | src/context/ProposalModalContext.tsx:53-78 | `openModal` mounts a fresh form with the preselection when the sheet was closed. When it was open, the mounted form's effect runs only if the preselection changed; otherwise the form is left as it is. |
| `ProposalModal.Close` | src/context/ProposalModalContext.tsx:61-81 | Closing unmounts the form. |
| `ProposalModal.FormEvent` | src/context/ProposalModalContext.tsx:73-78 | A form event reaches the form only while it is mounted, and never changes the provider's state. |
| `ProposalModal.OperationsKeepMounted` | src/context/ProposalModalContext.tsx:61-81 | The form is mounted exactly while the sheet is open, after every operation. |
| `ProposalModal.OpenWithSectorSelectsIt` | src/context/ProposalModalContext.tsx:53-78 | `openModal(id)` with id not 0, on a closed sheet or one whose preselection was another sector, leaves the form with sector `id` selected and offering exactly that sector's subcategories. |
| `ProposalModal.ReopenSameSectorKeepsUserChoice` | src/context/ProposalModalContext.tsx:53-78 | `openModal(id)` again with the sector already preselected does not reach the form: a sector the user picked in between stays selected. |
| `ProposalModal.OpenWithZeroFromClosed` | src/context/ProposalModalContext.tsx:54 | `openModal(0)` on a closed sheet mounts the form with no sector and a disabled subcategory select. |
| `ProposalModal.ReopenWithoutIdKeepsFormSelection` | src/context/ProposalModalContext.tsx:54-77 | `openModal()` or `openModal(0)` while the form is mounted clears the provider's preselection but not the form's selection. |
| `ProposalModal.FormReceivesPreselection` | src/context/ProposalModalContext.tsx:73-78 | A freshly mounted form's selection is the current preselection, or ''. |

## Left out

- Database, framework and logging calls are not part of this model:
  - the Supabase client and its queries (`createClient`);
  - `revalidatePath`, which is recorded as the list of revalidated paths;
  - `console.error`.

  The server assigns each proposal's id and creation time; the model's proposal rows carry neither.
- `ProposalList.Before` for 'title' compares titles by code point, not with `localeCompare`'s locale collation. Accents and case are therefore ordered differently from the browser.
- `Text.StrLeq` is antisymmetric: distinct titles never tie. `localeCompare` returns 0 for canonically equivalent strings, such as "é" written as one code point and as "e" followed by a combining accent; the stable sort then keeps such titles in their input order, while the stand-in always puts the decomposed form first.
- `Text.ToLower` maps only ASCII and the Latin-1 capitals. The rest of Unicode case mapping is not modelled.
- String lengths count code points, not UTF-16 code units. The two differ only for characters outside the Basic Multilingual Plane.
- `created_at` is an integer millisecond timestamp. Parsing date strings with `new Date(...)`, invalid dates (`NaN`, whose comparisons are all false) and `toLocaleDateString` are not modelled.
- `Text.IntToString` covers integers only. JavaScript's exponent notation for magnitudes of 1e21 and above is not modelled, and neither is `parseInt`'s loss of precision for very large values.
- `ProposalModal.Preselection` takes the id as an optional integer. A `NaN` id, which JavaScript would also treat as falsy, cannot arise from the sector ids the callers pass.
- `ProposalCard.SectorColor` looks the name up among the five keys only. Names such as "constructor", which a JavaScript object literal would resolve through its prototype, are not modelled.
- The action's `if(!citizen)` throw (src/lib/actions/proposal.actions.ts:55) cannot be reached in the model, because a successful insert always yields a citizen.
- A lookup that matches several rows cannot happen in the model, because the store is keyed by phone.
- Each `Faults` field says whether one gateway call fails. Network timeouts and partial writes inside one call are not modelled.
- The sheet's content is mounted only while the sheet is open. That is the behaviour of the dialog primitive behind the sheet; the primitive itself is not part of this model.
- The sequencing of sheet and modal through `setTimeout` in the mobile navigation is not modelled.
- Presentation is not modelled:
  - the result count badge, the card variants and the styling;
  - the subcategory select's `key`, which remounts it when the sector changes;
  - the 50-character hint;
  - `scrollIntoView`.
- `useMediaQuery`, the header's scroll progress, the hero video, the sectors section's icon table, the footer and the navigation config are browser or static presentation, and are left out.
- The list page's loading and error flags are fetch plumbing and are left out.
- `ProposalForm.HandleAction` takes the `FormData` as posted. The browser's own checks on the rendered form, the `required` attribute on every field and the phone's `pattern`, are not modelled; in the browser they stop most incomplete submissions before `handleAction` runs, leaving the old message in place. The disabled subcategory select is the case they cannot stop, since a disabled control is not validated.
- `ProposalForm.InvalidSubmissionKeepsForm` therefore describes `handleAction` and the server action given such data, which the rendered form reaches only for the disabled subcategory select or when the action is called directly.
- `ProposalForm.ApplyResult` assumes nothing else resets the form after a failed action: the description and the count are kept. The automatic reset of uncontrolled fields that React 19 performs after a `<form action={fn}>` action would instead clear the text area while the count kept its value; that framework behaviour is not modelled. `ProposalForm.BeginSubmit` likewise hides the old message at once, where React may defer that update until the action completes.

=== FILE: proposal_card.dfy ===
/** What a proposal card derives from its record: placeholder texts for
    missing joins, the collapsible description, the sector badge colour and
    the "new" badge. */
module ProposalCard {
  import opened Wrappers
  import opened Types
  import ProposalList

  const AnonymousAuthor := "Anônimo"
  const UnknownRegion := "Não informada"
  const UnknownSector := "Setor não informado"
  const UnknownSubcategory := "Tema não informado"
  const NoDescription := "Sem descrição fornecida."

  /** Characters shown of a collapsed description. */
  const CollapsedLength: nat := 150

  /** Three days in milliseconds: the age below which a card is "new". */
  const NewWindowMs: int := 3 * 24 * 60 * 60 * 1000

  /** `citizen?.name ?? 'Anônimo'`: only a missing citizen falls back, an
      empty name is shown as it is. */
  function AuthorName(p: ProposalWithDetails): (r: string)
    ensures p.citizen.Some? ==> r == p.citizen.value.name
    ensures p.citizen.None? ==> r == AnonymousAuthor
  {
    match p.citizen
    case None => AnonymousAuthor
    case Some(c) => c.name
  }

  /** `citizen?.region?.name`, or the placeholder when either link is null. */
  function AuthorRegion(p: ProposalWithDetails): (r: string)
    ensures p.citizen.Some? && p.citizen.value.region.Some? ==> r == p.citizen.value.region.value.name
    ensures p.citizen.None? || p.citizen.value.region.None? ==> r == UnknownRegion
  {
    match p.citizen
    case None => UnknownRegion
    case Some(c) => c.region.GetOr(Region(UnknownRegion)).name
  }

  /** `subcategory?.sector?.name`, or the placeholder when either link is null. */
  function SectorName(p: ProposalWithDetails): (r: string)
    ensures SectorNameOf(p).Some? ==> r == SectorNameOf(p).value
    ensures SectorNameOf(p).None? ==> r == UnknownSector
  {
    SectorNameOf(p).GetOr(UnknownSector)
  }

  /** `subcategory?.name`, or the placeholder when the subcategory is null. */
  function SubcategoryName(p: ProposalWithDetails): (r: string)
    ensures p.subcategory.Some? ==> r == p.subcategory.value.name
    ensures p.subcategory.None? ==> r == UnknownSubcategory
  {
    match p.subcategory
    case None => UnknownSubcategory
    case Some(sc) => sc.name
  }

  /** `description || 'Sem descrição fornecida.'`: the shown description is
      never empty. */
  function Description(p: ProposalWithDetails): (d: string)
    ensures d != ""
    ensures p.description != "" ==> d == p.description
    ensures p.description == "" ==> d == NoDescription
  {
    if p.description == "" then NoDescription else p.description
  }

  /** The description is longer than a collapsed card shows. */
  predicate IsLongText(description: string) {
    |description| > CollapsedLength
  }

  /** `displayText`: everything when expanded; when collapsed the first 150
      characters, with an ellipsis only if something was cut. */
  function DisplayText(description: string, isExpanded: bool): (r: string)
    ensures isExpanded ==> r == description
    ensures !isExpanded ==> r == ProposalList.Truncate(description, CollapsedLength)
  {
    var shown := if |description| <= CollapsedLength then description else description[..CollapsedLength];
    if isExpanded then description else shown + (if IsLongText(description) then "..." else "")
  }

  /** The display text is the full description when expanded or short, and
      the collapsed form is exactly the list's `truncateText` at 150. */
  lemma DisplayTextCases(description: string, isExpanded: bool)
    ensures isExpanded ==> DisplayText(description, isExpanded) == description
    ensures !IsLongText(description) ==> DisplayText(description, isExpanded) == description
    ensures !isExpanded ==> DisplayText(description, isExpanded) == ProposalList.Truncate(description, CollapsedLength)
    ensures !isExpanded && IsLongText(description) ==>
      DisplayText(description, isExpanded) == description[..CollapsedLength] + "..."
  {
  }

  /** `getSectorColor`: one class per known sector, gray for any other name. */
  function SectorColor(sector: string): (cls: string)
    ensures sector !in KnownSectors ==> cls == DefaultColor
  {
    if sector == "Desenvolvimento Social e Qualidade de Vida" then "bg-rose-100 text-rose-800 border-rose-200 hover:bg-rose-200"
    else if sector == "Economia e Oportunidades" then "bg-emerald-100 text-emerald-800 border-emerald-200 hover:bg-emerald-200"
    else if sector == "Mobilidade e Infraestrutura Urbana" then "bg-blue-100 text-blue-800 border-blue-200 hover:bg-blue-200"
    else if sector == "Segurança Pública e Cidadania" then "bg-amber-100 text-amber-800 border-amber-200 hover:bg-amber-200"
    else if sector == "Gestão Pública e Transparência" then "bg-indigo-100 text-indigo-800 border-indigo-200 hover:bg-indigo-200"
    else DefaultColor
  }

  const KnownSectors: set<string> := {
    "Desenvolvimento Social e Qualidade de Vida",
    "Economia e Oportunidades",
    "Mobilidade e Infraestrutura Urbana",
    "Segurança Pública e Cidadania",
    "Gestão Pública e Transparência"
  }

  const DefaultColor := "bg-gray-100 text-gray-800 border-gray-200 hover:bg-gray-200"

  /** The table's five entries: each known sector has its own colour class. */
  lemma SectorColorTable()
    ensures SectorColor("Desenvolvimento Social e Qualidade de Vida") == "bg-rose-100 text-rose-800 border-rose-200 hover:bg-rose-200"
    ensures SectorColor("Economia e Oportunidades") == "bg-emerald-100 text-emerald-800 border-emerald-200 hover:bg-emerald-200"
    ensures SectorColor("Mobilidade e Infraestrutura Urbana") == "bg-blue-100 text-blue-800 border-blue-200 hover:bg-blue-200"
    ensures SectorColor("Segurança Pública e Cidadania") == "bg-amber-100 text-amber-800 border-amber-200 hover:bg-amber-200"
    ensures SectorColor("Gestão Pública e Transparência") == "bg-indigo-100 text-indigo-800 border-indigo-200 hover:bg-indigo-200"
  {
  }

  /** A card whose subcategory or sector is null shows the placeholder
      sector name, which is not a known sector, so its badge is gray. */
  lemma MissingSectorIsGray(p: ProposalWithDetails)
    requires SectorNameOf(p).None?
    ensures SectorColor(SectorName(p)) == DefaultColor
  {
    assert UnknownSector !in KnownSectors;
  }

  /** `isNew`: created less than three days before `now` (a timestamp in the
      future also counts as new). */
  predicate IsNew(now: int, createdAt: int) {
    now - createdAt < NewWindowMs
  }

  /** The "new" badge disappears exactly 259200000 ms after creation and
      never comes back as time advances. */
  lemma IsNewWindow(now: int, later: int, createdAt: int)
    ensures NewWindowMs == 259200000
    ensures IsNew(now, createdAt) <==> now < createdAt + 259200000
    ensures later >= now && IsNew(later, createdAt) ==> IsNew(now, createdAt)
  {
  }

  // ---------------------------------------------------------------------
  // The expand toggle

  /** The card's own state. */
  datatype CardState = CardState(isExpanded: bool)

  const InitialCard := CardState(false)

  /** The "Ver mais"/"Ver menos" button is rendered only for long text. */
  predicate ToggleOffered(description: string) {
    IsLongText(description)
  }

  function ToggleLabel(st: CardState): (caption: string) {
    if st.isExpanded then "Ver menos" else "Ver mais"
  }

  /** A press on the toggle; for short text there is no button, so nothing changes. */
  function PressToggle(st: CardState, description: string): (r: CardState)
    ensures ToggleOffered(description) ==> r.isExpanded == !st.isExpanded
    ensures !ToggleOffered(description) ==> r == st
  {
    if ToggleOffered(description) then CardState(!st.isExpanded) else st
  }

  /** Two presses restore the card, and a short description is always shown
      in full whatever the card state. */
  lemma PressTwiceRestores(st: CardState, description: string)
    ensures PressToggle(PressToggle(st, description), description) == st
    ensures !IsLongText(description) ==> DisplayText(description, st.isExpanded) == description
    ensures ToggleOffered(description) ==> ToggleLabel(PressToggle(st, description)) != ToggleLabel(st)
  {
  }
}

=== FILE: proposal_form.dfy ===
/** The proposal form's own state: the selected sector and the subcategory
    options it unlocks, the character count of the description, and what a
    submission's result does to the form. */
module ProposalForm {
  import opened Wrappers
  import Seqs
  import Text
  import Submission

  /** A subcategory offered by the form; `sectorId` is its sector's numeric id. */
  datatype Subcategory = Subcategory(id: int, name: string, sectorId: int)

  /** The component's state. `selectedSector` is the value of the sector
      select (a string, as select values are); `description` is what the
      description text area holds. */
  datatype FormState = FormState(
    message: Option<string>,
    isSuccess: bool,
    selectedSector: string,
    description: string,
    characterCount: nat)

  /** The form as it mounts: `initialSectorId || ''` selected, no message,
      an empty description and a zero count. */
  function Init(initialSectorId: Option<string>): (st: FormState)
    ensures initialSectorId.Some? ==> st.selectedSector == initialSectorId.value
    ensures initialSectorId.None? ==> st.selectedSector == ""
    ensures st.message.None? && !st.isSuccess
    ensures st.description == "" && st.characterCount == 0
  {
    FormState(None, false, initialSectorId.GetOr(""), "", 0)
  }

  /** The effect on `initialSectorId`: only a non-empty value is copied into
      the selection; an absent or empty one leaves it as it is. */
  function InitialSectorChanged(st: FormState, initialSectorId: Option<string>): (r: FormState)
    ensures initialSectorId.Some? && initialSectorId.value != "" ==>
      r == st.(selectedSector := initialSectorId.value)
    ensures initialSectorId.None? || initialSectorId.value == "" ==> r == st
  {
    if initialSectorId.Some? && initialSectorId.value != "" then st.(selectedSector := initialSectorId.value) else st
  }

  /** The effect also runs once on mount; there it changes nothing. */
  lemma MountEffectIsNoOp(initialSectorId: Option<string>)
    ensures InitialSectorChanged(Init(initialSectorId), initialSectorId) == Init(initialSectorId)
  {
  }

  /** A choice in the sector select; the select's values are `String(sector.id)`. */
  function SelectSector(st: FormState, value: string): (r: FormState)
    ensures r.selectedSector == value
    ensures r.(selectedSector := st.selectedSector) == st
  {
    st.(selectedSector := value)
  }

  /** A change of the description text area: the count follows its length. */
  function EditDescription(st: FormState, text: string): (r: FormState)
    ensures r.description == text && r.characterCount == |text|
    ensures r.(description := st.description, characterCount := st.characterCount) == st
  {
    st.(description := text, characterCount := |text|)
  }

  // ---------------------------------------------------------------------
  // Subcategory options

  /** Keeps the subcategories of sector `n`. */
  function OfSector(n: int): (f: Subcategory -> bool)
    ensures forall sc :: f(sc) == (sc.sectorId == n)
  {
    (sc: Subcategory) => sc.sectorId == n
  }

  /** The effect on `selectedSector`: nothing when no sector is selected,
      otherwise the subcategories whose `sector_id` is
      `parseInt(selectedSector, 10)`, in their original order. A selection
      that does not parse is `NaN`, which equals no id. */
  function SubcategoryOptions(subs: seq<Subcategory>, selected: string): (r: seq<Subcategory>)
    ensures selected == "" ==> r == []
    ensures Text.ParseInt(selected).None? ==> r == []
    ensures selected != "" && Text.ParseInt(selected).Some? ==>
      forall sc :: sc in r <==> sc in subs && sc.sectorId == Text.ParseInt(selected).value
    ensures forall sc :: multiset(r)[sc] <= multiset(subs)[sc]
  {
    if selected == "" then []
    else match Text.ParseInt(selected)
      case None => []
      case Some(n) => Seqs.Filter(subs, OfSector(n))
  }

  /** The options keep the original order: options of a concatenation are
      the options of each part, one after the other. */
  lemma SubcategoryOptionsInOrder(a: seq<Subcategory>, b: seq<Subcategory>, selected: string)
    ensures SubcategoryOptions(a + b, selected) == SubcategoryOptions(a, selected) + SubcategoryOptions(b, selected)
  {
    if selected != "" && Text.ParseInt(selected).Some? {
      Seqs.FilterConcat(a, b, OfSector(Text.ParseInt(selected).value));
    }
  }

  /** Choosing the option `String(id)` offers exactly the subcategories of
      sector `id` — also for id 0, whose string "0" is not empty. */
  lemma SelectedIdOffersItsSubcategories(subs: seq<Subcategory>, id: int)
    ensures SubcategoryOptions(subs, Text.IntToString(id)) == Seqs.Filter(subs, OfSector(id))
    ensures forall sc :: sc in SubcategoryOptions(subs, Text.IntToString(id)) <==> sc in subs && sc.sectorId == id
  {
    Text.ParseIntIntToString(id);
    Text.NatToStringDenotes(if id < 0 then -id else id);
    assert Text.IntToString(id) != "";
  }

  /** `disabled={!selectedSector}`. */
  predicate SubcategoryDisabled(st: FormState) {
    st.selectedSector == ""
  }

  /** A disabled subcategory select never has options to offer. */
  lemma DisabledHasNoOptions(st: FormState, subs: seq<Subcategory>)
    ensures SubcategoryDisabled(st) ==> SubcategoryOptions(subs, st.selectedSector) == []
    ensures SubcategoryDisabled(st) <==> st.selectedSector == ""
  {
  }

  // ---------------------------------------------------------------------
  // Submission

  /** `setMessage(null)` before the action is awaited: the old message is hidden. */
  function BeginSubmit(st: FormState): (r: FormState)
    ensures r.message.None?
    ensures r.(message := st.message) == st
  {
    st.(message := None)
  }

  /** What the result does: it is shown as it came; on success the form is
      reset, so the selection, the description and the count are cleared;
      on failure they are kept. */
  function ApplyResult(st: FormState, result: Submission.ActionResult): (r: FormState)
    ensures r.message == Some(result.message) && r.isSuccess == result.success
    ensures result.success ==> r.selectedSector == "" && r.description == "" && r.characterCount == 0
    ensures !result.success ==>
      r.selectedSector == st.selectedSector && r.description == st.description
      && r.characterCount == st.characterCount
  {
    var shown := st.(message := Some(result.message), isSuccess := result.success);
    if result.success then shown.(selectedSector := "", description := "", characterCount := 0) else shown
  }

  /** `handleAction`: hide the message, run the server action, apply its
      result. The submitted description is what the text area holds. The
      outcome's store is what the action left in the database. */
  function HandleAction(st: FormState, data: Submission.FormData, store: Submission.Store, faults: Submission.Faults)
    : (r: (FormState, Submission.Outcome))
    requires data.description == Some(st.description)
    ensures r.1 == Submission.Submit(data, store, faults)
    ensures r.0.message == Some(r.1.result.message) && r.0.isSuccess == r.1.result.success
    ensures r.1.result.success ==> r.0.selectedSector == "" && r.0.characterCount == 0
    ensures !r.1.result.success ==> r.0.selectedSector == st.selectedSector && r.0.characterCount == st.characterCount
  {
    var out := Submission.Submit(data, store, faults);
    (ApplyResult(BeginSubmit(st), out.result), out)
  }

  /** A form missing a required field shows the validation message, keeps
      everything the user entered, and leaves the database untouched. */
  lemma InvalidSubmissionKeepsForm(st: FormState, data: Submission.FormData, store: Submission.Store, faults: Submission.Faults)
    requires data.description == Some(st.description)
    requires !Submission.Valid(data)
    ensures HandleAction(st, data, store, faults).0 ==
      st.(message := Some(Submission.ValidationMessage), isSuccess := false)
    ensures HandleAction(st, data, store, faults).1.store == store
  {
  }

  // ---------------------------------------------------------------------
  // Event sequences

  /** What can happen to a mounted form. */
  datatype FormEvent =
    | ChooseSector(value: string)
    | TypeDescription(text: string)
    | InitialSectorProp(initialSectorId: Option<string>)
    | SubmitStarted
    | SubmitFinished(result: Submission.ActionResult)

  function Step(st: FormState, e: FormEvent): (r: FormState)
  {
    match e
    case ChooseSector(v) => SelectSector(st, v)
    case TypeDescription(t) => EditDescription(st, t)
    case InitialSectorProp(v) => InitialSectorChanged(st, v)
    case SubmitStarted => BeginSubmit(st)
    case SubmitFinished(res) => ApplyResult(st, res)
  }

  function Run(st: FormState, es: seq<FormEvent>): (r: FormState)
    decreases |es|
  {
    if es == [] then st else Run(Step(st, es[0]), es[1..])
  }

  /** The count shown under the text area matches the description. */
  predicate CountMatches(st: FormState) {
    st.characterCount == |st.description|
  }

  /** Every event keeps the count in step with the description. */
  lemma StepKeepsCount(st: FormState, e: FormEvent)
    requires CountMatches(st)
    ensures CountMatches(Step(st, e))
  {
  }

  /** From mounting on, whatever happens, the count equals the length of
      the description. */
  lemma {:induction false} RunKeepsCount(st: FormState, es: seq<FormEvent>)
    requires CountMatches(st)
    ensures CountMatches(Run(st, es))
    decreases |es|
  {
    if es != [] {
      StepKeepsCount(st, es[0]);
      RunKeepsCount(Step(st, es[0]), es[1..]);
    }
  }

  /** The mounted form starts consistent, so it stays consistent. */
  lemma CountAlwaysMatches(initialSectorId: Option<string>, es: seq<FormEvent>)
    ensures Run(Init(initialSectorId), es).characterCount == |Run(Init(initialSectorId), es).description|
  {
    RunKeepsCount(Init(initialSectorId), es);
  }

  /** After any events, a successful submission leaves a blank form with
      no sector and a disabled subcategory select. */
  lemma {:induction false} SuccessResets(st: FormState, es: seq<FormEvent>, result: Submission.ActionResult, subs: seq<Subcategory>)
    requires result.success
    ensures var r := Run(st, es + [SubmitFinished(result)]);
      && r.selectedSector == "" && r.description == "" && r.characterCount == 0
      && SubcategoryDisabled(r) && SubcategoryOptions(subs, r.selectedSector) == []
      && r.message == Some(result.message) && r.isSuccess
    decreases |es|
  {
    if es == [] {
      assert es + [SubmitFinished(result)] == [SubmitFinished(result)];
    } else {
      assert (es + [SubmitFinished(result)])[1..] == es[1..] + [SubmitFinished(result)];
      SuccessResets(Step(st, es[0]), es[1..], result, subs);
    }
  }
}

=== FILE: proposal_list.dfy ===
/** The community proposal list: a pure derivation from the loaded proposals
    and three user criteria (free-text search, sector, sort key) to the
    ordered sequence of cards shown, plus the filter-reset controls. */
module ProposalList {
  import opened Wrappers
  import opened Types
  import Seqs
  import Text

  /** The user-controlled criteria. `sortBy` is the raw select value, so it
      may hold a key the sort does not recognise. */
  datatype ListState = ListState(search: string, selectedSector: string, sortBy: string)

  /** The state on first render: absent props take their defaults. */
  function InitialState(initialSearch: Option<string>, initialSector: Option<string>,
                        initialSort: Option<string>): (st: ListState)
    ensures initialSearch.None? ==> st.search == ""
    ensures initialSector.None? ==> st.selectedSector == ""
    ensures initialSort.None? ==> st.sortBy == "recent"
    ensures initialSearch.Some? ==> st.search == initialSearch.value
    ensures initialSector.Some? ==> st.selectedSector == initialSector.value
    ensures initialSort.Some? ==> st.sortBy == initialSort.value
  {
    ListState(initialSearch.GetOr(""), initialSector.GetOr(""), initialSort.GetOr("recent"))
  }

  // ---------------------------------------------------------------------
  // Truncation of select labels

  /** `truncateText`: the text itself when it fits, otherwise its first
      `maxLength` characters followed by an ellipsis. */
  function Truncate(text: string, maxLength: nat): (r: string)
    ensures |text| <= maxLength ==> r == text
    ensures |text| > maxLength ==>
      |r| == maxLength + 3 && r[..maxLength] == text[..maxLength] && r[maxLength..] == "..."
  {
    if |text| <= maxLength then text else text[..maxLength] + "..."
  }

  /** Truncation never yields more than `maxLength + 3` characters and always
      begins with a prefix of the text. */
  lemma TruncateBounded(text: string, maxLength: nat)
    ensures |Truncate(text, maxLength)| <= maxLength + 3
    ensures var k := if |text| < maxLength then |text| else maxLength;
            Truncate(text, maxLength)[..k] == text[..k]
  {
  }

  // ---------------------------------------------------------------------
  // The sector select

  /** The select's sentinel for "every sector". */
  const AllSectors := "all"

  /** The value the sector select shows for a selection. */
  function SectorSelectValue(selectedSector: string): (v: string)
    ensures v != ""
  {
    if selectedSector == "" then AllSectors else selectedSector
  }

  /** The selection stored when the sector select reports `value`. */
  function OnSectorValueChange(value: string): (selectedSector: string)
    ensures value == AllSectors ==> selectedSector == ""
    ensures value != AllSectors ==> selectedSector == value
  {
    if value == AllSectors then "" else value
  }

  /** Showing a selection and reading it back gives the selection, except for
      a sector literally named "all", which reads back as no sector. */
  lemma SectorSelectRoundTrip(selectedSector: string)
    ensures selectedSector != AllSectors ==>
      OnSectorValueChange(SectorSelectValue(selectedSector)) == selectedSector
    ensures selectedSector == AllSectors ==>
      OnSectorValueChange(SectorSelectValue(selectedSector)) == ""
  {
  }

  // ---------------------------------------------------------------------
  // Filters

  /** The record matches the lower-cased search `term` in its title,
      description, citizen name or subcategory name; a null field never matches. */
  predicate MatchesSearch(p: ProposalWithDetails, term: string) {
    || Text.Contains(Text.ToLower(p.title), term)
    || (p.description != "" && Text.Contains(Text.ToLower(p.description), term))
    || (p.citizen.Some? && Text.Contains(Text.ToLower(p.citizen.value.name), term))
    || (p.subcategory.Some? && Text.Contains(Text.ToLower(p.subcategory.value.name), term))
  }

  /** A field matches when the term occurs at some position of its lower-cased text. */
  ghost predicate FieldHas(field: string, term: string) {
    exists i :: Text.OccursAt(Text.ToLower(field), term, i)
  }

  /** The search test in terms of positions: the lower-cased term occurs in
      the title, in a non-empty description, or in the name of a present
      citizen or subcategory. */
  lemma MatchesSearchIffOccurs(p: ProposalWithDetails, term: string)
    ensures MatchesSearch(p, term) <==>
      || FieldHas(p.title, term)
      || (p.description != "" && FieldHas(p.description, term))
      || (p.citizen.Some? && FieldHas(p.citizen.value.name, term))
      || (p.subcategory.Some? && FieldHas(p.subcategory.value.name, term))
  {
    Text.ContainsIffOccurs(Text.ToLower(p.title), term);
    Text.ContainsIffOccurs(Text.ToLower(p.description), term);
    if p.citizen.Some? {
      Text.ContainsIffOccurs(Text.ToLower(p.citizen.value.name), term);
    }
    if p.subcategory.Some? {
      Text.ContainsIffOccurs(Text.ToLower(p.subcategory.value.name), term);
    }
  }

  /** The search test as a function value, so that every filter by it
      names the same predicate. */
  function SearchPred(term: string): (f: ProposalWithDetails -> bool)
    ensures forall p :: f(p) == MatchesSearch(p, term)
  {
    p => MatchesSearch(p, term)
  }

  /** The search step: no filtering for an empty search, otherwise exactly the
      records matching the lower-cased search, each as often as in `ps`. */
  function SearchFilter(ps: seq<ProposalWithDetails>, search: string): (r: seq<ProposalWithDetails>)
    ensures search == "" ==> r == ps
    ensures search != "" ==>
      forall p :: multiset(r)[p] == (if MatchesSearch(p, Text.ToLower(search)) then multiset(ps)[p] else 0)
  {
    if search == "" then ps else Seqs.Filter(ps, SearchPred(Text.ToLower(search)))
  }

  /** The record's `subcategory.sector.name` is exactly `sector`. */
  predicate InSector(p: ProposalWithDetails, sector: string) {
    SectorNameOf(p) == Some(sector)
  }

  /** A record is in a sector exactly when its subcategory and that
      subcategory's sector are both present and the sector has that name. */
  lemma InSectorIff(p: ProposalWithDetails, sector: string)
    ensures InSector(p, sector) <==>
      p.subcategory.Some? && p.subcategory.value.sector.Some? && p.subcategory.value.sector.value.name == sector
  {
  }

  /** The sector test as a function value, so that every filter by it
      names the same predicate. */
  function SectorPred(sector: string): (f: ProposalWithDetails -> bool)
    ensures forall p :: f(p) == InSector(p, sector)
  {
    p => InSector(p, sector)
  }

  /** The sector step: no filtering for an empty selection, otherwise exactly
      the records in that sector; records without a sector are dropped. */
  function SectorFilter(ps: seq<ProposalWithDetails>, sector: string): (r: seq<ProposalWithDetails>)
    ensures sector == "" ==> r == ps
    ensures sector != "" ==>
      forall p :: multiset(r)[p] == (if InSector(p, sector) then multiset(ps)[p] else 0)
  {
    if sector == "" then ps else Seqs.Filter(ps, SectorPred(sector))
  }

  /** The record survives both filters of `st`. */
  predicate Keeps(st: ListState, p: ProposalWithDetails) {
    && (st.search == "" || MatchesSearch(p, Text.ToLower(st.search)))
    && (st.selectedSector == "" || InSector(p, st.selectedSector))
  }

  /** Both filters, search first, in input order. */
  function Filtered(ps: seq<ProposalWithDetails>, st: ListState): (r: seq<ProposalWithDetails>)
    ensures forall p :: multiset(r)[p] == if Keeps(st, p) then multiset(ps)[p] else 0
  {
    SectorFilter(SearchFilter(ps, st.search), st.selectedSector)
  }

  // ---------------------------------------------------------------------
  // Sorting

  /** The comparator chosen by the sort key. */
  datatype SortOrder = Recent | Oldest | ByTitle

  /** The `switch`: "oldest" and "title" are recognised; "recent" and every
      other key fall into the default branch. */
  function OrderOf(sortBy: string): (o: SortOrder)
    ensures o == Oldest <==> sortBy == "oldest"
    ensures o == ByTitle <==> sortBy == "title"
  {
    if sortBy == "oldest" then Oldest else if sortBy == "title" then ByTitle else Recent
  }

  /** `a` may be placed before `b`: the comparator does not return a positive value. */
  predicate Before(o: SortOrder, a: ProposalWithDetails, b: ProposalWithDetails) {
    match o
    case Recent => a.createdAt >= b.createdAt
    case Oldest => a.createdAt <= b.createdAt
    case ByTitle => Text.StrLeq(a.title, b.title)
  }

  /** The comparator returns 0: a tie. */
  predicate SameRank(o: SortOrder, a: ProposalWithDetails, b: ProposalWithDetails) {
    Before(o, a, b) && Before(o, b, a)
  }

  lemma BeforeTotal(o: SortOrder, a: ProposalWithDetails, b: ProposalWithDetails)
    ensures Before(o, a, b) || Before(o, b, a)
  {
    if o == ByTitle {
      Text.StrLeqTotal(a.title, b.title);
    }
  }

  lemma BeforeTransitive(o: SortOrder, a: ProposalWithDetails, b: ProposalWithDetails, c: ProposalWithDetails)
    requires Before(o, a, b) && Before(o, b, c)
    ensures Before(o, a, c)
  {
    if o == ByTitle {
      Text.StrLeqTransitive(a.title, b.title, c.title);
    }
  }

  predicate Sorted(o: SortOrder, s: seq<ProposalWithDetails>) {
    forall i, j :: 0 <= i < j < |s| ==> Before(o, s[i], s[j])
  }

  /** The tie test as a function value, so that every filter by it
      names the same predicate. */
  function RankPred(o: SortOrder, k: ProposalWithDetails): (f: ProposalWithDetails -> bool)
    ensures forall p :: f(p) == SameRank(o, p, k)
  {
    p => SameRank(o, p, k)
  }

  /** The records tied with `k`, in the order they appear in `s`. A stable
      sort leaves this subsequence unchanged for every `k`. */
  function TiedWith(o: SortOrder, s: seq<ProposalWithDetails>, k: ProposalWithDetails): (r: seq<ProposalWithDetails>)
  {
    Seqs.Filter(s, RankPred(o, k))
  }

  /** Places `x` before the first element it may precede: after every element
      strictly before it and before the elements tied with it. */
  function Insert(o: SortOrder, x: ProposalWithDetails, ys: seq<ProposalWithDetails>): (r: seq<ProposalWithDetails>)
    ensures multiset(r) == multiset(ys) + multiset{x}
  {
    if ys == [] then [x]
    else if Before(o, x, ys[0]) then [x] + ys
    else
      assert ys == [ys[0]] + ys[1..];
      [ys[0]] + Insert(o, x, ys[1..])
  }

  /** The stable sort `Array.prototype.sort` performs, as an insertion sort. */
  function SortBy(o: SortOrder, s: seq<ProposalWithDetails>): (r: seq<ProposalWithDetails>)
    ensures multiset(r) == multiset(s)
  {
    if s == [] then []
    else
      assert s == [s[0]] + s[1..];
      Insert(o, s[0], SortBy(o, s[1..]))
  }

  lemma {:induction false} InsertSorted(o: SortOrder, x: ProposalWithDetails, ys: seq<ProposalWithDetails>)
    requires Sorted(o, ys)
    ensures Sorted(o, Insert(o, x, ys))
  {
    if ys == [] {
    } else if Before(o, x, ys[0]) {
      var r := [x] + ys;
      forall i, j | 0 <= i < j < |r| ensures Before(o, r[i], r[j]) {
        if i == 0 && j > 1 {
          BeforeTransitive(o, x, ys[0], ys[j - 1]);
        }
      }
    } else {
      BeforeTotal(o, x, ys[0]);
      var tail := Insert(o, x, ys[1..]);
      InsertSorted(o, x, ys[1..]);
      var r := [ys[0]] + tail;
      forall i, j | 0 <= i < j < |r| ensures Before(o, r[i], r[j]) {
        if i == 0 {
          var e := tail[j - 1];
          assert e in multiset(tail);
          assert e == x || e in multiset(ys[1..]);
          if e != x {
            var m :| 0 <= m < |ys[1..]| && ys[1..][m] == e;
            assert ys[m + 1] == e;
          }
        }
      }
    }
  }

  /** Inserting `x` puts it ahead of every element tied with it. */
  lemma {:induction false} InsertTies(o: SortOrder, x: ProposalWithDetails, ys: seq<ProposalWithDetails>, k: ProposalWithDetails)
    ensures TiedWith(o, Insert(o, x, ys), k) == TiedWith(o, [x], k) + TiedWith(o, ys, k)
  {
    if ys == [] {
      assert [x] + ys == [x];
    } else if Before(o, x, ys[0]) {
      Seqs.FilterConcat([x], ys, RankPred(o, k));
    } else {
      InsertTies(o, x, ys[1..], k);
      InsertTiesPast(o, x, ys, k);
    }
  }

  /** The step of `InsertTies` where `x` moves past the head of `ys`. */
  lemma InsertTiesPast(o: SortOrder, x: ProposalWithDetails, ys: seq<ProposalWithDetails>, k: ProposalWithDetails)
    requires ys != [] && !Before(o, x, ys[0])
    requires TiedWith(o, Insert(o, x, ys[1..]), k) == TiedWith(o, [x], k) + TiedWith(o, ys[1..], k)
    ensures TiedWith(o, Insert(o, x, ys), k) == TiedWith(o, [x], k) + TiedWith(o, ys, k)
  {
    var h, rest := ys[0], ys[1..];
    assert ys == [h] + rest;
    assert Insert(o, x, ys) == [h] + Insert(o, x, rest);
    NotBothTied(o, x, h, k);
    TiesMovePast(o, x, h, rest, Insert(o, x, rest), k);
  }

  /** An element strictly before `x` is never tied with the same `k` as `x`. */
  lemma NotBothTied(o: SortOrder, x: ProposalWithDetails, h: ProposalWithDetails, k: ProposalWithDetails)
    requires !Before(o, x, h)
    ensures !(SameRank(o, x, k) && SameRank(o, h, k))
  {
    if SameRank(o, x, k) && SameRank(o, h, k) {
      BeforeTransitive(o, x, k, h);
    }
  }

  /** Moving `x` past a head `h` it is not tied with alongside `k` keeps the
      subsequence of elements tied with `k`. */
  lemma TiesMovePast(o: SortOrder, x: ProposalWithDetails, h: ProposalWithDetails,
                     rest: seq<ProposalWithDetails>, t: seq<ProposalWithDetails>, k: ProposalWithDetails)
    requires !(SameRank(o, x, k) && SameRank(o, h, k))
    requires TiedWith(o, t, k) == TiedWith(o, [x], k) + TiedWith(o, rest, k)
    ensures TiedWith(o, [h] + t, k) == TiedWith(o, [x], k) + TiedWith(o, [h] + rest, k)
  {
    var f := RankPred(o, k);
    Seqs.FilterConcat([h], t, f);
    Seqs.FilterConcat([h], rest, f);
    Seqs.FilterSwapSingletons(x, h, f);
    Seqs.ConcatRearrange(Seqs.Filter([h], f), Seqs.Filter([x], f), Seqs.Filter(rest, f),
      Seqs.Filter(t, f), Seqs.Filter([h] + rest, f));
  }

  lemma {:induction false} SortBySorted(o: SortOrder, s: seq<ProposalWithDetails>)
    ensures Sorted(o, SortBy(o, s))
  {
    if s != [] {
      SortBySorted(o, s[1..]);
      InsertSorted(o, s[0], SortBy(o, s[1..]));
    }
  }

  /** Stability: ties keep their input order. */
  lemma {:induction false} SortByStable(o: SortOrder, s: seq<ProposalWithDetails>, k: ProposalWithDetails)
    ensures TiedWith(o, SortBy(o, s), k) == TiedWith(o, s, k)
  {
    if s != [] {
      SortByStable(o, s[1..], k);
      SortByStableStep(o, s, k);
    }
  }

  /** The step of `SortByStable` that inserts the head of `s`. */
  lemma SortByStableStep(o: SortOrder, s: seq<ProposalWithDetails>, k: ProposalWithDetails)
    requires s != []
    requires TiedWith(o, SortBy(o, s[1..]), k) == TiedWith(o, s[1..], k)
    ensures TiedWith(o, SortBy(o, s), k) == TiedWith(o, s, k)
  {
    var h, rest := s[0], s[1..];
    assert SortBy(o, s) == Insert(o, h, SortBy(o, rest));
    InsertTies(o, h, SortBy(o, rest), k);
    TiedWithCons(o, s, k);
  }

  /** The ties of a sequence are those of its head followed by those of its tail. */
  lemma TiedWithCons(o: SortOrder, s: seq<ProposalWithDetails>, k: ProposalWithDetails)
    requires s != []
    ensures TiedWith(o, s, k) == TiedWith(o, [s[0]], k) + TiedWith(o, s[1..], k)
  {
    assert s == [s[0]] + s[1..];
    Seqs.FilterConcat([s[0]], s[1..], RankPred(o, k));
  }

  /** Sorting an already sorted sequence leaves it unchanged. */
  lemma {:induction false} SortBySortedIdentity(o: SortOrder, s: seq<ProposalWithDetails>)
    requires Sorted(o, s)
    ensures SortBy(o, s) == s
  {
    if s != [] {
      assert Sorted(o, s[1..]);
      SortBySortedIdentity(o, s[1..]);
      assert s == [s[0]] + s[1..];
    }
  }

  // ---------------------------------------------------------------------
  // The derived list

  /** `filteredAndSortedProposals`: filter a copy of `ps`, then sort it. */
  function Derive(ps: seq<ProposalWithDetails>, st: ListState): (r: seq<ProposalWithDetails>)
    ensures forall p :: multiset(r)[p] == if Keeps(st, p) then multiset(ps)[p] else 0
    ensures multiset(r) <= multiset(ps)
  {
    SortBy(OrderOf(st.sortBy), Filtered(ps, st))
  }

  /** The derived list is ordered by the selected key and keeps ties in
      input order: "oldest" gives non-decreasing timestamps, "title" titles in
      comparator order, and "recent" or any other key non-increasing timestamps. */
  lemma DeriveOrdered(ps: seq<ProposalWithDetails>, st: ListState)
    ensures Sorted(OrderOf(st.sortBy), Derive(ps, st))
    ensures st.sortBy == "oldest" ==> forall i, j :: 0 <= i < j < |Derive(ps, st)| ==>
      Derive(ps, st)[i].createdAt <= Derive(ps, st)[j].createdAt
    ensures st.sortBy == "title" ==> forall i, j :: 0 <= i < j < |Derive(ps, st)| ==>
      Text.StrLeq(Derive(ps, st)[i].title, Derive(ps, st)[j].title)
    ensures st.sortBy != "oldest" && st.sortBy != "title" ==> forall i, j :: 0 <= i < j < |Derive(ps, st)| ==>
      Derive(ps, st)[i].createdAt >= Derive(ps, st)[j].createdAt
    ensures forall k :: TiedWith(OrderOf(st.sortBy), Derive(ps, st), k) == TiedWith(OrderOf(st.sortBy), Filtered(ps, st), k)
  {
    var o := OrderOf(st.sortBy);
    SortBySorted(o, Filtered(ps, st));
    forall k ensures TiedWith(o, Derive(ps, st), k) == TiedWith(o, Filtered(ps, st), k) {
      SortByStable(o, Filtered(ps, st), k);
    }
  }

  /** Deriving again from the derived list with the same criteria changes nothing. */
  lemma DeriveIdempotent(ps: seq<ProposalWithDetails>, st: ListState)
    ensures Derive(Derive(ps, st), st) == Derive(ps, st)
  {
    var r := Derive(ps, st);
    assert forall i :: 0 <= i < |r| ==> Keeps(st, r[i]) by {
      forall i | 0 <= i < |r| ensures Keeps(st, r[i]) {
        assert r[i] in multiset(r);
      }
    }
    if st.search != "" {
      Seqs.FilterAll(r, SearchPred(Text.ToLower(st.search)));
    }
    assert SearchFilter(r, st.search) == r;
    if st.selectedSector != "" {
      Seqs.FilterAll(r, SectorPred(st.selectedSector));
    }
    assert Filtered(r, st) == r;
    DeriveOrdered(ps, st);
    SortBySortedIdentity(OrderOf(st.sortBy), r);
  }

  /** No two different records share a timestamp. */
  predicate DistinctTimes(s: seq<ProposalWithDetails>) {
    forall i, j :: 0 <= i < |s| && 0 <= j < |s| && s[i].createdAt == s[j].createdAt ==> s[i] == s[j]
  }

  /** Two oldest-first orderings of the same records with distinct
      timestamps are the same sequence. */
  lemma {:induction false} OldestOrderUnique(a: seq<ProposalWithDetails>, b: seq<ProposalWithDetails>)
    requires multiset(a) == multiset(b)
    requires Sorted(Oldest, a) && Sorted(Oldest, b)
    requires DistinctTimes(a)
    ensures a == b
  {
    if a == [] {
      assert |b| == |multiset(b)| == 0;
    } else {
      assert |b| == |multiset(b)| == |multiset(a)| == |a|;
      assert a[0] in multiset(b);
      var j :| 0 <= j < |b| && b[j] == a[0];
      assert b[0] in multiset(a);
      var i :| 0 <= i < |a| && a[i] == b[0];
      assert b[0].createdAt <= a[0].createdAt && a[0].createdAt <= b[0].createdAt;
      assert a[0] == b[0];
      assert a == [a[0]] + a[1..];
      assert b == [b[0]] + b[1..];
      assert multiset(a) == multiset{a[0]} + multiset(a[1..]);
      assert multiset(b) == multiset{b[0]} + multiset(b[1..]);
      assert multiset(a[1..]) == multiset(a) - multiset{a[0]};
      assert multiset(b[1..]) == multiset(b) - multiset{b[0]};
      OldestOrderUnique(a[1..], b[1..]);
    }
  }

  /** A newest-first sequence read backwards is oldest-first. */
  lemma ReverseRecentIsOldest(s: seq<ProposalWithDetails>)
    requires Sorted(Recent, s)
    ensures Sorted(Oldest, Seqs.Reverse(s))
  {
    var rev := Seqs.Reverse(s);
    forall i, j | 0 <= i < j < |rev| ensures Before(Oldest, rev[i], rev[j]) {
      assert rev[i] == s[|s| - 1 - i] && rev[j] == s[|s| - 1 - j];
      assert Before(Recent, s[|s| - 1 - j], s[|s| - 1 - i]);
    }
  }

  /** Distinct timestamps carry over to any sub-multiset. */
  lemma DistinctTimesSub(a: seq<ProposalWithDetails>, b: seq<ProposalWithDetails>)
    requires multiset(a) <= multiset(b)
    requires DistinctTimes(b)
    ensures DistinctTimes(a)
  {
    forall i, j | 0 <= i < |a| && 0 <= j < |a| && a[i].createdAt == a[j].createdAt
      ensures a[i] == a[j]
    {
      assert a[i] in multiset(a) && a[j] in multiset(a);
      assert a[i] in multiset(b) && a[j] in multiset(b);
      var i' :| 0 <= i' < |b| && b[i'] == a[i];
      var j' :| 0 <= j' < |b| && b[j'] == a[j];
    }
  }

  /** With distinct timestamps, "oldest" is exactly "recent" reversed. */
  lemma OldestReversesRecent(ps: seq<ProposalWithDetails>, st: ListState)
    requires DistinctTimes(ps)
    ensures Derive(ps, st.(sortBy := "oldest")) == Seqs.Reverse(Derive(ps, st.(sortBy := "recent")))
  {
    var f := Filtered(ps, st);
    assert Filtered(ps, st.(sortBy := "oldest")) == f;
    assert Filtered(ps, st.(sortBy := "recent")) == f;
    var up := SortBy(Oldest, f);
    var down := SortBy(Recent, f);
    assert up == Derive(ps, st.(sortBy := "oldest"));
    assert down == Derive(ps, st.(sortBy := "recent"));
    SortBySorted(Oldest, f);
    SortBySorted(Recent, f);
    ReverseRecentIsOldest(down);
    DistinctTimesSub(up, ps);
    OldestOrderUnique(up, Seqs.Reverse(down));
  }

  // ---------------------------------------------------------------------
  // Clearing the filters

  /** The "Limpar Filtros" button is shown while some criterion differs
      from its default. */
  predicate HasActiveFilters(st: ListState) {
    st.search != "" || st.selectedSector != "" || st.sortBy != "recent"
  }

  /** `clearFilters`: one state replacement to the defaults. */
  function ClearFilters(): (st: ListState)
    ensures !HasActiveFilters(st)
    ensures forall p :: Keeps(st, p)
  {
    ListState("", "", "recent")
  }

  /** The defaults are the only state without active filters, so the
      button disappears exactly when the criteria are cleared. */
  lemma InactiveIffCleared(st: ListState)
    ensures !HasActiveFilters(st) <==> st == ClearFilters()
  {
  }

  /** After clearing, every loaded proposal is shown, newest first. */
  lemma ClearedShowsAllNewestFirst(ps: seq<ProposalWithDetails>)
    ensures multiset(Derive(ps, ClearFilters())) == multiset(ps)
    ensures forall i, j :: 0 <= i < j < |Derive(ps, ClearFilters())| ==>
      Derive(ps, ClearFilters())[i].createdAt >= Derive(ps, ClearFilters())[j].createdAt
    ensures Derive(ps, ClearFilters()) == SortBy(Recent, ps)
  {
    DeriveOrdered(ps, ClearFilters());
  }

  /** An unrecognised sort key sorts like "recent" yet counts as an active filter. */
  lemma UnknownSortKeyActsAsRecent(ps: seq<ProposalWithDetails>, st: ListState)
    requires st.sortBy != "recent" && st.sortBy != "oldest" && st.sortBy != "title"
    ensures HasActiveFilters(st)
    ensures Derive(ps, st) == Derive(ps, st.(sortBy := "recent"))
  {
    assert Filtered(ps, st) == Filtered(ps, st.(sortBy := "recent"));
  }

  // ---------------------------------------------------------------------
  // Worked examples

  const ProposalB := ProposalWithDetails("b", 1704153600000, "B", "", None, None)
  const ProposalA := ProposalWithDetails("a", 1704067200000, "A", "", None, None)

  /** "B" created on 2024-01-02 and "A" on 2024-01-01: by title and by
      oldest the order is A, B; by recent it is B, A. */
  lemma ExampleSortOrders()
    ensures Derive([ProposalB, ProposalA], ListState("", "", "title")) == [ProposalA, ProposalB]
    ensures Derive([ProposalB, ProposalA], ListState("", "", "oldest")) == [ProposalA, ProposalB]
    ensures Derive([ProposalB, ProposalA], ListState("", "", "recent")) == [ProposalB, ProposalA]
  {
    var ps := [ProposalB, ProposalA];
    assert Filtered(ps, ListState("", "", "title")) == ps;
    assert Filtered(ps, ListState("", "", "oldest")) == ps;
    assert Filtered(ps, ListState("", "", "recent")) == ps;
    assert ps[1..] == [ProposalA];
    assert [ProposalA][1..] == [];
    assert !Text.StrLeq("B", "A");
    ExampleSortTwo(ByTitle);
    ExampleSortTwo(Oldest);
    ExampleSortTwo(Recent);
  }

  lemma ExampleSortTwo(o: SortOrder)
    ensures SortBy(o, [ProposalB, ProposalA]) == if Before(o, ProposalB, ProposalA) then [ProposalB, ProposalA] else [ProposalA, ProposalB]
  {
    var ps := [ProposalB, ProposalA];
    assert ps[1..] == [ProposalA];
    assert SortBy(o, [ProposalA]) == [ProposalA] by {
      assert [ProposalA][1..] == [];
    }
    assert SortBy(o, ps) == Insert(o, ProposalB, [ProposalA]);
    assert [ProposalA][1..] == [];
  }
}

=== FILE: proposal_modal.dfy ===
/** The proposal sheet: whether it is open, which sector it preselects, and
    how that preselection reaches the form mounted inside it. */
module ProposalModal {
  import opened Wrappers
  import Text
  import ProposalForm

  /** The provider's state; the preselection is `String(sectorId)` or absent. */
  datatype ModalState = ModalState(isOpen: bool, selectedSectorId: Option<string>)

  const InitialModal := ModalState(false, None)

  /** `sectorId ? String(sectorId) : undefined`: a missing id and the falsy
      id 0 both clear the preselection. */
  function Preselection(sectorId: Option<int>): (r: Option<string>)
    ensures sectorId.Some? && sectorId.value != 0 <==> r.Some?
    ensures r.Some? ==> Text.ParseInt(r.value) == sectorId
  {
    if sectorId.Some? && sectorId.value != 0 then
      Text.ParseIntIntToString(sectorId.value);
      Some(Text.IntToString(sectorId.value))
    else None
  }

  /** `openModal(sectorId?)`: the sheet opens with the new preselection,
      whatever state it was in. */
  function OpenModal(st: ModalState, sectorId: Option<int>): (r: ModalState)
    ensures r.isOpen
    ensures sectorId.Some? && sectorId.value != 0 ==>
      r.selectedSectorId.Some? && Text.ParseInt(r.selectedSectorId.value) == sectorId
    ensures sectorId.None? || sectorId.value == 0 ==> r.selectedSectorId.None?
  {
    ModalState(true, Preselection(sectorId))
  }

  /** `onOpenChange={setIsOpen}`: the sheet's own open/close request; the
      preselection is kept. */
  function OnOpenChange(st: ModalState, open: bool): (r: ModalState)
    ensures r.isOpen == open
    ensures r.selectedSectorId == st.selectedSectorId
  {
    st.(isOpen := open)
  }

  /** Opening again does not stack: the second call wins outright, and the
      first call's state is forgotten. */
  lemma OpenModalNoStacking(st: ModalState, first: Option<int>, second: Option<int>)
    ensures OpenModal(OpenModal(st, first), second) == OpenModal(st, second)
    ensures OpenModal(OpenModal(st, first), second) == OpenModal(InitialModal, second)
  {
  }

  /** Closing and opening again with no id shows no preselection, while
      closing alone keeps the last one for the next render. */
  lemma CloseKeepsPreselection(st: ModalState, sectorId: Option<int>)
    ensures OnOpenChange(OpenModal(st, sectorId), false).selectedSectorId == Preselection(sectorId)
    ensures !OnOpenChange(OpenModal(st, sectorId), false).isOpen
    ensures OpenModal(OnOpenChange(st, false), None).selectedSectorId.None?
  {
  }

  const GuardMessage := "useProposalModal must be used within a ProposalModalProvider"

  /** The context value the provider publishes, here the provider's state
      that its `openModal` acts on. */
  datatype ModalContext = ModalContext(state: ModalState)

  /** `useProposalModal`: the provider's context, or the guard's error when
      the caller is not inside a provider. */
  function UseProposalModal(context: Option<ModalContext>): (r: Result<ModalContext, string>)
    ensures context.None? <==> r.Failure?
    ensures r.Failure? ==> r.error == GuardMessage
    ensures r.Success? ==> r.value == context.value
  {
    match context
    case None => Failure(GuardMessage)
    case Some(c) => Success(c)
  }

  // ---------------------------------------------------------------------
  // The sheet with the form inside it

  /** The provider and, while the sheet is open, the form it renders with
      `initialSectorId={selectedSectorId}`. */
  datatype Sheet = Sheet(modal: ModalState, form: Option<ProposalForm.FormState>)

  const InitialSheet := Sheet(InitialModal, None)

  /** The form is mounted exactly while the sheet is open. */
  predicate Mounted(sh: Sheet) {
    sh.form.Some? <==> sh.modal.isOpen
  }

  /** `openModal` seen from the form: a closed sheet mounts a fresh form
      with the preselection. An open one re-renders the mounted form, whose
      effect on `initialSectorId` runs only when the preselection changed. */
  function Open(sh: Sheet, sectorId: Option<int>): (r: Sheet)
    ensures r.modal == OpenModal(sh.modal, sectorId)
    ensures sh.form.None? ==> r.form == Some(ProposalForm.Init(r.modal.selectedSectorId))
    ensures sh.form.Some? && r.modal.selectedSectorId != sh.modal.selectedSectorId ==>
      r.form == Some(ProposalForm.InitialSectorChanged(sh.form.value, r.modal.selectedSectorId))
    ensures sh.form.Some? && r.modal.selectedSectorId == sh.modal.selectedSectorId ==> r.form == sh.form
  {
    var modal := OpenModal(sh.modal, sectorId);
    match sh.form
    case None => Sheet(modal, Some(ProposalForm.Init(modal.selectedSectorId)))
    case Some(f) =>
      if modal.selectedSectorId == sh.modal.selectedSectorId then Sheet(modal, sh.form)
      else Sheet(modal, Some(ProposalForm.InitialSectorChanged(f, modal.selectedSectorId)))
  }

  /** Closing the sheet unmounts the form and with it the form's state. */
  function Close(sh: Sheet): (r: Sheet)
    ensures r.modal == OnOpenChange(sh.modal, false)
    ensures r.form.None?
  {
    Sheet(OnOpenChange(sh.modal, false), None)
  }

  /** An event inside the form; with the sheet closed there is no form. A
      new `initialSectorId` reaches the form only through `Open`. */
  function FormEvent(sh: Sheet, e: ProposalForm.FormEvent): (r: Sheet)
    requires !e.InitialSectorProp?
    ensures r.modal == sh.modal
    ensures sh.form.None? ==> r.form.None?
    ensures sh.form.Some? ==> r.form == Some(ProposalForm.Step(sh.form.value, e))
  {
    match sh.form
    case None => sh
    case Some(f) => sh.(form := Some(ProposalForm.Step(f, e)))
  }

  /** Every operation keeps the form mounted exactly while the sheet is open. */
  lemma OperationsKeepMounted(sh: Sheet, sectorId: Option<int>, e: ProposalForm.FormEvent)
    requires Mounted(sh) && !e.InitialSectorProp?
    ensures Mounted(Open(sh, sectorId)) && Mounted(Close(sh)) && Mounted(FormEvent(sh, e))
  {
  }

  /** A sector card's button, `openModal(id)` with id not 0, on a closed
      sheet or one whose preselection was another sector: the form now has
      sector `id` selected and offers exactly that sector's subcategories. */
  lemma OpenWithSectorSelectsIt(sh: Sheet, id: int, subs: seq<ProposalForm.Subcategory>)
    requires id != 0
    requires sh.form.None? || sh.modal.selectedSectorId != Some(Text.IntToString(id))
    ensures var r := Open(sh, Some(id));
      && r.form.Some?
      && r.form.value.selectedSector == Text.IntToString(id)
      && !ProposalForm.SubcategoryDisabled(r.form.value)
      && (forall sc :: sc in ProposalForm.SubcategoryOptions(subs, r.form.value.selectedSector) <==>
            sc in subs && sc.sectorId == id)
  {
    Text.NatToStringDenotes(if id < 0 then -id else id);
    ProposalForm.SelectedIdOffersItsSubcategories(subs, id);
  }

  /** Re-opening with the sector already preselected does not reach the
      form: a sector the user picked in the meantime stays selected. */
  lemma ReopenSameSectorKeepsUserChoice(sh: Sheet, id: int, picked: string)
    requires id != 0 && sh.form.Some? && sh.modal.selectedSectorId == Some(Text.IntToString(id))
    ensures var chosen := FormEvent(sh, ProposalForm.ChooseSector(picked));
      Open(chosen, Some(id)).form.value.selectedSector == picked
  {
  }

  /** "Sugira uma nova área" calls `openModal(0)`: from a closed sheet the
      form mounts with no sector and a disabled subcategory select. */
  lemma OpenWithZeroFromClosed(sh: Sheet, subs: seq<ProposalForm.Subcategory>)
    requires sh.form.None?
    ensures var r := Open(sh, Some(0));
      && r.modal.selectedSectorId.None?
      && r.form == Some(ProposalForm.Init(None))
      && ProposalForm.SubcategoryDisabled(r.form.value)
      && ProposalForm.SubcategoryOptions(subs, r.form.value.selectedSector) == []
  {
  }

  /** Re-opening with no id or 0 while the form is mounted clears the
      provider's preselection but not the form's selection, because the
      form's effect ignores an absent value. */
  lemma ReopenWithoutIdKeepsFormSelection(sh: Sheet, sectorId: Option<int>)
    requires sh.form.Some?
    requires sectorId.None? || sectorId.value == 0
    ensures Open(sh, sectorId).modal.selectedSectorId.None?
    ensures Open(sh, sectorId).form == sh.form
  {
  }

  /** The form always receives the current preselection: right after any
      `openModal`, a freshly mounted form's selection is that preselection
      or "". */
  lemma FormReceivesPreselection(sh: Sheet, sectorId: Option<int>)
    requires sh.form.None?
    ensures Open(sh, sectorId).form.value.selectedSector == Open(sh, sectorId).modal.selectedSectorId.GetOr("")
  {
  }
}

=== FILE: seqs.dfy ===
/** Order-preserving filtering of sequences, the model of `Array.prototype.filter`. */
module Seqs {

  /** The elements of `s` that satisfy `f`, in their original order. */
  function Filter<T(!new)>(s: seq<T>, f: T -> bool): (r: seq<T>)
    ensures |r| <= |s|
    ensures forall i :: 0 <= i < |r| ==> f(r[i])
    ensures forall x :: multiset(r)[x] == if f(x) then multiset(s)[x] else 0
    ensures forall x :: x in r <==> x in s && f(x)
  {
    if s == [] then []
    else
      assert s == [s[0]] + s[1..];
      (if f(s[0]) then [s[0]] else []) + Filter(s[1..], f)
  }

  /** Filtering distributes over concatenation: the kept elements of `a`
      come before the kept elements of `b`, so relative order is kept. */
  lemma {:induction false} FilterConcat<T(!new)>(a: seq<T>, b: seq<T>, f: T -> bool)
    ensures Filter(a + b, f) == Filter(a, f) + Filter(b, f)
  {
    if a == [] {
      assert a + b == b;
    } else {
      assert (a + b)[1..] == a[1..] + b;
      FilterConcat(a[1..], b, f);
    }
  }

  /** When every element passes, filtering changes nothing. */
  lemma {:induction false} FilterAll<T(!new)>(s: seq<T>, f: T -> bool)
    requires forall i :: 0 <= i < |s| ==> f(s[i])
    ensures Filter(s, f) == s
  {
    if s != [] {
      FilterAll(s[1..], f);
    }
  }

  /** Filtering twice with the same predicate is filtering once. */
  lemma FilterIdempotent<T(!new)>(s: seq<T>, f: T -> bool)
    ensures Filter(Filter(s, f), f) == Filter(s, f)
  {
    FilterAll(Filter(s, f), f);
  }

  /** The elements of `s` in the opposite order. */
  function Reverse<T>(s: seq<T>): (r: seq<T>)
    ensures |r| == |s|
    ensures forall i :: 0 <= i < |s| ==> r[i] == s[|s| - 1 - i]
    ensures multiset(r) == multiset(s)
  {
    if s == [] then []
    else
      assert s == [s[0]] + s[1..];
      Reverse(s[1..]) + [s[0]]
  }

  lemma FilterSingleton<T(!new)>(x: T, f: T -> bool)
    ensures Filter([x], f) == if f(x) then [x] else []
  {
    assert [x][1..] == [];
  }

  /** Two singletons of which at most one survives commute under filtering. */
  lemma FilterSwapSingletons<T(!new)>(x: T, y: T, f: T -> bool)
    requires !(f(x) && f(y))
    ensures Filter([y], f) + Filter([x], f) == Filter([x], f) + Filter([y], f)
  {
    FilterSingleton(x, f);
    FilterSingleton(y, f);
  }

  /** `a` moved past `x` when the two commute. */
  lemma ConcatRearrange<T>(a: seq<T>, x: seq<T>, rest: seq<T>, t: seq<T>, y: seq<T>)
    requires t == x + rest && y == a + rest && a + x == x + a
    ensures a + t == x + y
  {
    calc {
      a + t;
      a + (x + rest);
      (a + x) + rest;
      (x + a) + rest;
      x + (a + rest);
      x + y;
    }
  }
}

=== FILE: submission.dfy ===
/** The `submitProposal` server action: normalise the phone, validate the
    form, find or create the citizen by phone, insert the proposal, and turn
    every failure into a `{success, message}` result.

    The hosted database is an abstract `Store`; which gateway calls fail is
    given by a `Faults` record, one optional error per call. */
module Submission {
  import opened Wrappers
  import Seqs
  import Text

  const ValidationMessage := "Por favor, preencha todos os campos obrigatórios."
  const SuccessMessage := "Sua proposta foi enviada com sucesso! Agradecemos sua participação."
  const UnexpectedMessage := "Ocorreu um erro inesperado."
  const DuplicatePhoneMessage := "Este número de telefone já está cadastrado. Por favor, utilize outro."

  /** The text of the backend's error for the unique phone-number constraint. */
  const DuplicateKeyText := "duplicate key value violates unique constraint \"Citizens_phone_number_key\""

  /** The error code a single-row query reports when no row matched. */
  const NotFoundCode := "PGRST116"

  /** The two cached views invalidated after a successful submission. */
  const RevalidatedOnSuccess := ["/propostas", "/"]

  /** The six submitted fields; `None` is a field the form did not send. */
  datatype FormData = FormData(
    name: Option<string>,
    phoneNumber: Option<string>,
    regionId: Option<string>,
    subcategoryId: Option<string>,
    title: Option<string>,
    description: Option<string>)

  datatype Citizen = Citizen(id: nat, name: string, phoneNumber: string, regionId: Option<string>)

  /** A proposal row as inserted; `subcategoryId` is `parseInt` of the field
      (`None` for `NaN`). Server-assigned columns are not modelled. */
  datatype Proposal = Proposal(citizenId: nat, subcategoryId: Option<int>, title: string, description: string)

  /** The backend's tables: citizens keyed by phone number, proposals in
      insertion order, and the next citizen id the backend will assign. */
  datatype Store = Store(citizens: map<string, Citizen>, proposals: seq<Proposal>, nextCitizenId: nat)

  datatype DbError = DbError(code: string, message: string)

  /** Failures the gateway reports for each call of one submission. */
  datatype Faults = Faults(lookup: Option<DbError>, citizenInsert: Option<DbError>, proposalInsert: Option<DbError>)

  const NoFaults := Faults(None, None, None)

  datatype ActionResult = ActionResult(success: bool, message: string)

  /** The result returned, the store afterwards, and the paths revalidated. */
  datatype Outcome = Outcome(result: ActionResult, store: Store, revalidated: seq<string>)

  // ---------------------------------------------------------------------
  // Input handling

  /** `(phone || '').replace(/\D/g, '')`: every non-digit removed, a missing
      phone read as the empty string. */
  function NormalizePhone(raw: Option<string>): (phone: string)
    ensures Text.AllDigits(phone)
    ensures forall c :: multiset(phone)[c] == if Text.IsDigit(c) then multiset(raw.GetOr(""))[c] else 0
    ensures raw.None? ==> phone == ""
  {
    KeepDigitsFilters(raw.GetOr(""));
    Text.KeepDigits(raw.GetOr(""))
  }

  /** Removing non-digits is filtering by `\d`. */
  lemma {:induction false} KeepDigitsFilters(s: string)
    ensures Text.KeepDigits(s) == Seqs.Filter(s, Text.IsDigit)
  {
    if s != [] {
      KeepDigitsFilters(s[1..]);
    }
  }

  /** Normalisation keeps digits in order: it distributes over concatenation
      and leaves an already normalised phone unchanged. */
  lemma NormalizePhoneInOrder(a: string, b: string)
    ensures NormalizePhone(Some(a + b)) == NormalizePhone(Some(a)) + NormalizePhone(Some(b))
    ensures NormalizePhone(Some(NormalizePhone(Some(a)))) == NormalizePhone(Some(a))
  {
    Seqs.FilterConcat(a, b, Text.IsDigit);
    KeepDigitsFilters(a + b);
    KeepDigitsFilters(a);
    KeepDigitsFilters(b);
    KeepDigitsFilters(Text.KeepDigits(a));
    Seqs.FilterIdempotent(a, Text.IsDigit);
  }

  /** Characters that are not digits, such as the parentheses, spaces and
      dashes of a formatted phone, do not change the normalised phone. */
  lemma SeparatorsIgnored(a: string, sep: string, b: string)
    requires forall i :: 0 <= i < |sep| ==> !Text.IsDigit(sep[i])
    ensures NormalizePhone(Some(a + sep + b)) == NormalizePhone(Some(a + b))
  {
    Text.KeepDigitsSkips(a, sep, b);
  }

  /** A field counts as filled when it was sent and is not empty; white
      space is not trimmed, so "   " is filled. */
  predicate Filled(field: Option<string>) {
    field.Some? && field.value != ""
  }

  /** The required-field check: name, normalised phone, subcategory, title
      and description. The region is not checked. */
  predicate Valid(form: FormData) {
    Filled(form.name) && NormalizePhone(form.phoneNumber) != "" && Filled(form.subcategoryId)
    && Filled(form.title) && Filled(form.description)
  }

  /** The check looks at neither the region nor white space: changing the
      region never changes the verdict, and a name of three spaces counts
      as filled. */
  lemma ValidIgnoresRegionAndBlanks(form: FormData, region: Option<string>)
    ensures Valid(form.(regionId := region)) <==> Valid(form)
    ensures Valid(form) ==> Valid(form.(name := Some("   ")))
  {
  }

  // ---------------------------------------------------------------------
  // Error mapping

  /** The `catch` block's message: the error's own message, the generic text
      if that is empty, and the duplicate-phone text when the message carries
      the phone constraint violation. */
  function ErrorMessage(thrown: string): (message: string)
    ensures message != ""
    ensures Text.Contains(thrown, DuplicateKeyText) ==> message == DuplicatePhoneMessage
    ensures !Text.Contains(thrown, DuplicateKeyText) && thrown != "" ==> message == thrown
    ensures thrown == "" ==> message == UnexpectedMessage
  {
    var m := if thrown == "" then UnexpectedMessage else thrown;
    if Text.Contains(m, DuplicateKeyText) then DuplicatePhoneMessage else m
  }

  /** A wrapped gateway message keeps the duplicate-key text, so the
      duplicate-phone message is reported whatever the prefix. */
  lemma WrappedDuplicateIsDetected(prefix: string, gatewayMessage: string)
    requires Text.Contains(gatewayMessage, DuplicateKeyText)
    ensures ErrorMessage(prefix + gatewayMessage) == DuplicatePhoneMessage
  {
    Text.ContainsIffOccurs(gatewayMessage, DuplicateKeyText);
    var i :| Text.OccursAt(gatewayMessage, DuplicateKeyText, i);
    var whole := prefix + gatewayMessage;
    assert whole[|prefix| + i..|prefix| + i + |DuplicateKeyText|] == gatewayMessage[i..i + |DuplicateKeyText|];
    assert Text.OccursAt(whole, DuplicateKeyText, |prefix| + i);
    Text.ContainsIffOccurs(whole, DuplicateKeyText);
  }

  function Fail(store: Store, thrown: string): (out: Outcome)
    ensures !out.result.success && out.store == store && out.revalidated == []
    ensures out.result.message == ErrorMessage(thrown)
  {
    Outcome(ActionResult(false, ErrorMessage(thrown)), store, [])
  }

  // ---------------------------------------------------------------------
  // The gateway

  /** The answer of the single-row citizen query. */
  datatype LookupReply = Found(id: nat) | LookupError(error: DbError)

  /** `select('id').eq('phone_number', phone).single()`: an injected fault
      wins; otherwise the stored citizen, or the not-found error. */
  function LookupCitizen(store: Store, faults: Faults, phone: string): (reply: LookupReply)
    ensures faults.lookup.Some? ==> reply == LookupError(faults.lookup.value)
    ensures faults.lookup.None? && phone in store.citizens ==> reply == Found(store.citizens[phone].id)
    ensures faults.lookup.None? && phone !in store.citizens ==> reply.LookupError? && reply.error.code == NotFoundCode
  {
    if faults.lookup.Some? then LookupError(faults.lookup.value)
    else if phone in store.citizens then Found(store.citizens[phone].id)
    else LookupError(DbError(NotFoundCode, "no rows returned"))
  }

  /** The citizen insert: an injected fault wins; the unique phone
      constraint rejects a phone already stored; otherwise the citizen is
      stored under the next id. */
  function InsertCitizen(store: Store, faults: Faults, name: string, phone: string, regionId: Option<string>): (r: Result<Store, DbError>)
    ensures r.Success? <==> faults.citizenInsert.None? && phone !in store.citizens
    ensures r.Success? ==> r.value == store.(citizens := store.citizens[phone := Citizen(store.nextCitizenId, name, phone, regionId)],
                                             nextCitizenId := store.nextCitizenId + 1)
    ensures faults.citizenInsert.None? && phone in store.citizens ==> r == Failure(DbError("23505", DuplicateKeyText))
  {
    if faults.citizenInsert.Some? then Failure(faults.citizenInsert.value)
    else if phone in store.citizens then Failure(DbError("23505", DuplicateKeyText))
    else Success(store.(citizens := store.citizens[phone := Citizen(store.nextCitizenId, name, phone, regionId)],
                        nextCitizenId := store.nextCitizenId + 1))
  }

  /** The proposal row a valid form produces for the citizen `citizenId`;
      `subcategory_id` goes through `parseInt`. */
  function RowFor(form: FormData, citizenId: nat): (row: Proposal)
    requires Valid(form)
    ensures row.citizenId == citizenId
    ensures Some(row.title) == form.title && Some(row.description) == form.description
    ensures row.subcategoryId.Some? <==> Text.ParseInt(form.subcategoryId.value).Some?
  {
    Proposal(citizenId, Text.ParseInt(form.subcategoryId.value), form.title.value, form.description.value)
  }

  /** A subcategory chosen in the form's select arrives as `String(id)`, so
      the stored row references exactly that id. */
  lemma RowForChosenSubcategory(form: FormData, citizenId: nat, id: int)
    requires Valid(form) && form.subcategoryId == Some(Text.IntToString(id))
    ensures RowFor(form, citizenId).subcategoryId == Some(id)
  {
    Text.ParseIntIntToString(id);
  }

  /** The proposal insert, then revalidation and the success result. A
      failed insert is reported like any other caught error. */
  function InsertProposal(store: Store, faults: Faults, citizenId: nat, form: FormData): (out: Outcome)
    requires Valid(form)
    ensures faults.proposalInsert.Some? ==>
      && !out.result.success && out.store == store && out.revalidated == []
      && out.result.message == ErrorMessage("Erro ao registrar proposta: " + faults.proposalInsert.value.message)
    ensures faults.proposalInsert.None? ==>
      && out.result == ActionResult(true, SuccessMessage)
      && out.store.citizens == store.citizens && out.store.nextCitizenId == store.nextCitizenId
      && out.store.proposals == store.proposals + [RowFor(form, citizenId)]
      && out.revalidated == RevalidatedOnSuccess
  {
    match faults.proposalInsert
    case Some(e) => Fail(store, "Erro ao registrar proposta: " + e.message)
    case None =>
      Outcome(ActionResult(true, SuccessMessage), store.(proposals := store.proposals + [RowFor(form, citizenId)]), RevalidatedOnSuccess)
  }

  // ---------------------------------------------------------------------
  // The action

  /** `submitProposal`. */
  function Submit(form: FormData, store: Store, faults: Faults): (out: Outcome)
    ensures !Valid(form) ==> out == Outcome(ActionResult(false, ValidationMessage), store, [])
    ensures out.result.success ==>
      && Valid(form) && out.result.message == SuccessMessage
      && out.revalidated == RevalidatedOnSuccess
      && NormalizePhone(form.phoneNumber) in out.store.citizens
      && out.store.proposals == store.proposals + [RowFor(form, out.store.citizens[NormalizePhone(form.phoneNumber)].id)]
    ensures !out.result.success ==> out.revalidated == [] && out.store.proposals == store.proposals
    ensures forall ph :: ph in store.citizens ==> ph in out.store.citizens && out.store.citizens[ph] == store.citizens[ph]
    ensures forall ph :: ph in out.store.citizens && ph !in store.citizens ==> ph == NormalizePhone(form.phoneNumber)
  {
    var phone := NormalizePhone(form.phoneNumber);
    if !Valid(form) then Outcome(ActionResult(false, ValidationMessage), store, [])
    else
      match LookupCitizen(store, faults, phone)
      case Found(id) => InsertProposal(store, faults, id, form)
      case LookupError(e) =>
        if e.code != NotFoundCode then Fail(store, "Erro ao verificar cidadão: " + e.message)
        else
          match InsertCitizen(store, faults, form.name.value, phone, form.regionId)
          case Failure(e2) => Fail(store, "Erro ao criar perfil: " + e2.message)
          case Success(store') => InsertProposal(store', faults, store.nextCitizenId, form)
  }

  // ---------------------------------------------------------------------
  // Properties of the action

  /** A known phone: no citizen is written, and on success the proposal
      references the stored citizen. */
  lemma SubmitExistingCitizen(form: FormData, store: Store, faults: Faults)
    requires Valid(form) && faults.lookup.None?
    requires NormalizePhone(form.phoneNumber) in store.citizens
    ensures Submit(form, store, faults).store.citizens == store.citizens
    ensures Submit(form, store, faults).result.success <==> faults.proposalInsert.None?
    ensures faults.proposalInsert.None? ==>
      Submit(form, store, faults).store.proposals == store.proposals + [RowFor(form, store.citizens[NormalizePhone(form.phoneNumber)].id)]
  {
  }

  /** A new phone: exactly one citizen `{name, phone, region}` is stored
      under a fresh id before the proposal is attempted. */
  lemma SubmitNewCitizen(form: FormData, store: Store, faults: Faults)
    requires Valid(form) && faults.lookup.None? && faults.citizenInsert.None?
    requires NormalizePhone(form.phoneNumber) !in store.citizens
    ensures Submit(form, store, faults).store.citizens ==
      store.citizens[NormalizePhone(form.phoneNumber) :=
        Citizen(store.nextCitizenId, form.name.value, NormalizePhone(form.phoneNumber), form.regionId)]
    ensures |Submit(form, store, faults).store.citizens| == |store.citizens| + 1
    ensures Submit(form, store, faults).result.success <==> faults.proposalInsert.None?
    ensures faults.proposalInsert.None? ==>
      Submit(form, store, faults).store.proposals == store.proposals + [RowFor(form, store.nextCitizenId)]
  {
  }

  /** No rollback: when the citizen was created but the proposal insert
      failed, the citizen stays, no proposal is added, nothing is revalidated. */
  lemma SubmitNoRollback(form: FormData, store: Store, faults: Faults)
    requires Valid(form) && faults.lookup.None? && faults.citizenInsert.None? && faults.proposalInsert.Some?
    requires NormalizePhone(form.phoneNumber) !in store.citizens
    ensures !Submit(form, store, faults).result.success
    ensures NormalizePhone(form.phoneNumber) in Submit(form, store, faults).store.citizens
    ensures Submit(form, store, faults).store.proposals == store.proposals
    ensures Submit(form, store, faults).revalidated == []
    ensures Submit(form, store, faults).result.message ==
      ErrorMessage("Erro ao registrar proposta: " + faults.proposalInsert.value.message)
  {
  }

  /** A lookup error other than not-found ends the action with no writes. */
  lemma SubmitLookupFailure(form: FormData, store: Store, faults: Faults)
    requires Valid(form) && faults.lookup.Some? && faults.lookup.value.code != NotFoundCode
    ensures Submit(form, store, faults) ==
      Outcome(ActionResult(false, ErrorMessage("Erro ao verificar cidadão: " + faults.lookup.value.message)), store, [])
  {
  }

  /** A concurrent submission that stored the same phone first makes the
      citizen insert fail on the constraint; the user sees the duplicate-phone
      message and nothing is written. */
  lemma SubmitDuplicateRace(form: FormData, store: Store, faults: Faults, e: DbError)
    requires Valid(form) && faults.lookup.None? && faults.citizenInsert == Some(e)
    requires Text.Contains(e.message, DuplicateKeyText)
    requires NormalizePhone(form.phoneNumber) !in store.citizens
    ensures Submit(form, store, faults) == Outcome(ActionResult(false, DuplicatePhoneMessage), store, [])
  {
    WrappedDuplicateIsDetected("Erro ao criar perfil: ", e.message);
  }

  /** With a healthy gateway every valid form succeeds. */
  lemma SubmitValidSucceeds(form: FormData, store: Store)
    requires Valid(form)
    ensures Submit(form, store, NoFaults).result == ActionResult(true, SuccessMessage)
    ensures |Submit(form, store, NoFaults).store.proposals| == |store.proposals| + 1
  {
  }

  // ---------------------------------------------------------------------
  // Store invariant

  predicate HasCitizen(store: Store, id: nat) {
    exists ph :: ph in store.citizens && store.citizens[ph].id == id
  }

  /** Each citizen is stored under its own phone with an id below the next
      one and unique, and every proposal references a stored citizen. */
  predicate WellFormed(store: Store) {
    && (forall ph :: ph in store.citizens ==>
          store.citizens[ph].phoneNumber == ph && store.citizens[ph].id < store.nextCitizenId)
    && (forall a, b :: a in store.citizens && b in store.citizens && a != b ==>
          store.citizens[a].id != store.citizens[b].id)
    && (forall i :: 0 <= i < |store.proposals| ==> HasCitizen(store, store.proposals[i].citizenId))
  }

  lemma SubmitPreservesWellFormed(form: FormData, store: Store, faults: Faults)
    requires WellFormed(store)
    ensures WellFormed(Submit(form, store, faults).store)
  {
    var out := Submit(form, store, faults);
    var s := out.store;
    assert s.nextCitizenId >= store.nextCitizenId by {
      if Valid(form) {
        var phone := NormalizePhone(form.phoneNumber);
        var reply := LookupCitizen(store, faults, phone);
        if reply.LookupError? && reply.error.code == NotFoundCode {
          var ins := InsertCitizen(store, faults, form.name.value, phone, form.regionId);
        }
      }
    }
    forall i | 0 <= i < |s.proposals| ensures HasCitizen(s, s.proposals[i].citizenId) {
      if i < |store.proposals| {
        assert HasCitizen(store, store.proposals[i].citizenId);
        var ph :| ph in store.citizens && store.citizens[ph].id == store.proposals[i].citizenId;
        assert s.proposals[i] == store.proposals[i];
        assert ph in s.citizens && s.citizens[ph].id == s.proposals[i].citizenId;
      } else {
        var phone := NormalizePhone(form.phoneNumber);
        assert phone in s.citizens && s.citizens[phone].id == s.proposals[i].citizenId;
      }
    }
  }

  /** Two submissions from one phone written differently resolve to the
      same citizen: the second adds a proposal and no citizen. */
  lemma SamePhoneSameCitizen(first: FormData, second: FormData, store: Store)
    requires Valid(first) && Valid(second)
    requires NormalizePhone(first.phoneNumber) == NormalizePhone(second.phoneNumber)
    ensures var s1 := Submit(first, store, NoFaults).store;
            var out := Submit(second, s1, NoFaults);
            && out.result.success
            && out.store.citizens == s1.citizens
            && out.store.proposals[|out.store.proposals| - 1].citizenId ==
               s1.proposals[|s1.proposals| - 1].citizenId
  {
    var phone := NormalizePhone(first.phoneNumber);
    var s1 := Submit(first, store, NoFaults).store;
    assert phone in s1.citizens;
    SubmitExistingCitizen(second, s1, NoFaults);
  }

  /** A phone in the shape of the form's placeholder, "(AA) HHHHH-TTTT",
      followed by the same digits written "AA HHHHH TTTT" registers one
      citizen. */
  lemma ExampleRepeatSubmission(store: Store, first: FormData, second: FormData, area: string, head: string, tail: string)
    requires Valid(first) && Valid(second)
    requires first.phoneNumber == Some("(" + area + ") " + head + "-" + tail)
    requires second.phoneNumber == Some(area + " " + head + " " + tail)
    ensures Submit(second, Submit(first, store, NoFaults).store, NoFaults).store.citizens ==
            Submit(first, store, NoFaults).store.citizens
  {
    Text.KeepDigitsPhoneFormats(area, head, tail);
    SamePhoneSameCitizen(first, second, store);
  }

  /** The placeholder itself, "(61) 99999-9999", and then "61 99999 9999"
      register one citizen. */
  lemma PlaceholderRepeatSubmission(store: Store, first: FormData, second: FormData)
    requires Valid(first) && Valid(second)
    requires first.phoneNumber == Some("(61) 99999-9999")
    requires second.phoneNumber == Some("61 99999 9999")
    ensures Submit(second, Submit(first, store, NoFaults).store, NoFaults).store.citizens ==
            Submit(first, store, NoFaults).store.citizens
  {
    Text.PlaceholderDigits();
    Text.SpacedPlaceholderDigits();
    SamePhoneSameCitizen(first, second, store);
  }
}

=== FILE: text.dfy ===
/** The string primitives the components rely on: JavaScript's
    `toLowerCase`, `includes`, the `\D` character class, `parseInt(s, 10)`,
    `String(n)` for integers, and the title comparator used for sorting. */
module Text {
  import opened Wrappers

  // ---------------------------------------------------------------------
  // Case mapping

  /** Upper-case letters this model maps: ASCII `A`-`Z` and the Latin-1
      capitals U+00C0..U+00DE except the multiplication sign U+00D7. */
  predicate IsUpper(c: char) {
    ('A' <= c <= 'Z') || (0xC0 <= c as int <= 0xDE && c as int != 0xD7)
  }

  /** One character of `toLowerCase`. */
  function LowerChar(c: char): (d: char)
    ensures !IsUpper(d)
    ensures !IsUpper(c) ==> d == c
    ensures IsUpper(c) ==> d != c
  {
    if IsUpper(c) then (c as int + 32) as char else c
  }

  /** `toLowerCase`, character by character. */
  function ToLower(s: string): (r: string)
    ensures |r| == |s|
    ensures forall i :: 0 <= i < |r| ==> r[i] == LowerChar(s[i])
  {
    seq(|s|, i requires 0 <= i < |s| => LowerChar(s[i]))
  }

  /** Lower-casing a lower-cased string changes nothing. */
  lemma ToLowerIdempotent(s: string)
    ensures ToLower(ToLower(s)) == ToLower(s)
  {
  }

  // ---------------------------------------------------------------------
  // Substring search

  /** `needle` occurs in `hay` starting at index `i`. */
  predicate OccursAt(hay: string, needle: string, i: int) {
    0 <= i && i + |needle| <= |hay| && hay[i..i + |needle|] == needle
  }

  /** `hay.includes(needle)`, scanning left to right. */
  function Contains(hay: string, needle: string): (b: bool)
    decreases |hay|
  {
    if |needle| <= |hay| && hay[..|needle|] == needle then true
    else if |hay| <= |needle| then false
    else Contains(hay[1..], needle)
  }

  /** `Contains` holds exactly when the needle occurs at some position. */
  lemma {:induction false} ContainsIffOccurs(hay: string, needle: string)
    ensures Contains(hay, needle) <==> exists i :: OccursAt(hay, needle, i)
    decreases |hay|
  {
    if |needle| <= |hay| && hay[..|needle|] == needle {
      assert OccursAt(hay, needle, 0);
    } else if |hay| <= |needle| {
    } else {
      ContainsIffOccurs(hay[1..], needle);
      if Contains(hay[1..], needle) {
        var j :| OccursAt(hay[1..], needle, j);
        assert hay[1..][j..j + |needle|] == hay[j + 1..j + 1 + |needle|];
        assert OccursAt(hay, needle, j + 1);
      }
      if exists i :: OccursAt(hay, needle, i) {
        var i :| OccursAt(hay, needle, i);
        assert i != 0;
        assert hay[1..][i - 1..i - 1 + |needle|] == hay[i..i + |needle|];
        assert OccursAt(hay[1..], needle, i - 1);
      }
    }
  }

  // ---------------------------------------------------------------------
  // Digits

  /** A character of the regular-expression class `\d` (ASCII digits only). */
  predicate IsDigit(c: char) {
    '0' <= c <= '9'
  }

  /** `s.replace(/\D/g, '')`: the digits of `s`, in order. */
  function KeepDigits(s: string): (r: string)
  {
    if s == [] then [] else (if IsDigit(s[0]) then [s[0]] else []) + KeepDigits(s[1..])
  }

  /** Removing non-digits distributes over concatenation. */
  lemma {:induction false} KeepDigitsConcat(a: string, b: string)
    ensures KeepDigits(a + b) == KeepDigits(a) + KeepDigits(b)
  {
    if a == [] {
      assert a + b == b;
    } else {
      assert (a + b)[1..] == a[1..] + b;
      KeepDigitsConcat(a[1..], b);
    }
  }

  /** A string without digits loses every character. */
  lemma {:induction false} KeepDigitsNone(s: string)
    requires forall i :: 0 <= i < |s| ==> !IsDigit(s[i])
    ensures KeepDigits(s) == []
  {
    if s != [] {
      KeepDigitsNone(s[1..]);
    }
  }

  /** Non-digit characters between two parts drop out. */
  lemma KeepDigitsSkips(a: string, sep: string, b: string)
    requires forall i :: 0 <= i < |sep| ==> !IsDigit(sep[i])
    ensures KeepDigits(a + sep + b) == KeepDigits(a + b)
  {
    KeepDigitsConcat(a + sep, b);
    KeepDigitsConcat(a, sep);
    KeepDigitsConcat(a, b);
    KeepDigitsNone(sep);
  }

  /** A phone written "(AA) HHHHH-TTTT" or "AA HHHHH TTTT" keeps the same digits. */
  lemma KeepDigitsPhoneFormats(area: string, head: string, tail: string)
    ensures KeepDigits("(" + area + ") " + head + "-" + tail) == KeepDigits(area + head + tail)
    ensures KeepDigits(area + " " + head + " " + tail) == KeepDigits(area + head + tail)
  {
    KeepDigitsSkips([], "(", area + ") " + head + "-" + tail);
    assert [] + "(" + (area + ") " + head + "-" + tail) == "(" + area + ") " + head + "-" + tail;
    KeepDigitsSkips(area, ") ", head + "-" + tail);
    assert area + ") " + (head + "-" + tail) == area + ") " + head + "-" + tail;
    KeepDigitsSkips(area + head, "-", tail);
    assert [] + (area + ") " + head + "-" + tail) == area + ") " + head + "-" + tail;
    assert area + (head + "-" + tail) == (area + head) + "-" + tail;
    KeepDigitsSkips(area, " ", head + " " + tail);
    assert area + " " + (head + " " + tail) == area + " " + head + " " + tail;
    KeepDigitsSkips(area + head, " ", tail);
    assert area + (head + " " + tail) == (area + head) + " " + tail;
  }

  predicate AllDigits(s: string) {
    forall i :: 0 <= i < |s| ==> IsDigit(s[i])
  }

  /** A string made only of digits is its own `\D` replacement. */
  lemma {:induction false} AllDigitsKept(s: string)
    requires AllDigits(s)
    ensures KeepDigits(s) == s
  {
    if s != [] {
      assert AllDigits(s[1..]);
      AllDigitsKept(s[1..]);
      assert s == [s[0]] + s[1..];
    }
  }

  /** A phone written in either format from digit groups keeps exactly
      the digits of the groups. */
  lemma PhoneFormatsOfDigits(area: string, head: string, tail: string)
    requires AllDigits(area + head + tail)
    ensures KeepDigits("(" + area + ") " + head + "-" + tail) == area + head + tail
    ensures KeepDigits(area + " " + head + " " + tail) == area + head + tail
  {
    KeepDigitsPhoneFormats(area, head, tail);
    AllDigitsKept(area + head + tail);
  }

  /** The phone form's placeholder keeps its eleven digits. */
  lemma PlaceholderDigits()
    ensures KeepDigits("(61) 99999-9999") == "61999999999"
  {
    var a, h, t := "61", "99999", "9999";
    assert a + h + t == "61999999999";
    assert AllDigits(a + h + t);
    PhoneFormatsOfDigits(a, h, t);
    assert "(" + a + ") " + h + "-" + t == "(61) 99999-9999";
  }

  /** The placeholder's number written with spaces keeps the same digits. */
  lemma SpacedPlaceholderDigits()
    ensures KeepDigits("61 99999 9999") == "61999999999"
  {
    var a, h, t := "61", "99999", "9999";
    assert a + h + t == "61999999999";
    assert AllDigits(a + h + t);
    PhoneFormatsOfDigits(a, h, t);
    assert a + " " + h + " " + t == "61 99999 9999";
  }

  function DigitValue(c: char): (v: nat)
    requires IsDigit(c)
  {
    c as int - '0' as int
  }

  function DigitChar(k: nat): (c: char)
    requires k < 10
    ensures IsDigit(c) && DigitValue(c) == k
  {
    ('0' as int + k) as char
  }

  /** The number a string of decimal digits denotes. */
  function DigitsValue(d: string): (v: nat)
    requires AllDigits(d)
  {
    if d == [] then 0 else 10 * DigitsValue(d[..|d| - 1]) + DigitValue(d[|d| - 1])
  }

  // ---------------------------------------------------------------------
  // `String(n)` and `parseInt(s, 10)`

  /** Decimal notation of a natural number, without leading zeros. */
  function NatToString(n: nat): (r: string)
  {
    if n < 10 then [DigitChar(n)] else NatToString(n / 10) + [DigitChar(n % 10)]
  }

  /** `String(n)` for an integer `n`. */
  function IntToString(n: int): (r: string)
  {
    if n < 0 then "-" + NatToString(-n) else NatToString(n)
  }

  /** `NatToString` writes a non-empty string of digits denoting `n`. */
  lemma {:induction false} NatToStringDenotes(n: nat)
    ensures |NatToString(n)| > 0 && AllDigits(NatToString(n))
    ensures DigitsValue(NatToString(n)) == n
  {
    if n >= 10 {
      NatToStringDenotes(n / 10);
      var s := NatToString(n / 10) + [DigitChar(n % 10)];
      assert s[..|s| - 1] == NatToString(n / 10);
    }
  }

  /** White space `parseInt` skips before the number: the ECMAScript
      WhiteSpace and LineTerminator code points. */
  predicate IsJsWhiteSpace(c: char) {
    var n := c as int;
    n == 0x09 || n == 0x0A || n == 0x0B || n == 0x0C || n == 0x0D || n == 0x20
    || n == 0xA0 || n == 0x1680 || (0x2000 <= n <= 0x200A) || n == 0x2028
    || n == 0x2029 || n == 0x202F || n == 0x205F || n == 0x3000 || n == 0xFEFF
  }

  function TrimStart(s: string): (r: string)
  {
    if s != [] && IsJsWhiteSpace(s[0]) then TrimStart(s[1..]) else s
  }

  /** The longest prefix of `s` made of digits. */
  function DigitPrefix(s: string): (d: string)
    ensures AllDigits(d)
    ensures |d| <= |s| && d == s[..|d|]
    ensures |d| < |s| ==> !IsDigit(s[|d|])
  {
    if s != [] && IsDigit(s[0]) then [s[0]] + DigitPrefix(s[1..]) else []
  }

  /** `parseInt(s, 10)`; `None` stands for `NaN`. */
  function ParseInt(s: string): (r: Option<int>)
  {
    var t := TrimStart(s);
    var negative := t != [] && t[0] == '-';
    var body := if t != [] && (t[0] == '-' || t[0] == '+') then t[1..] else t;
    var d := DigitPrefix(body);
    var magnitude: int := if d == [] then 0 else DigitsValue(d);
    if d == [] then None
    else if negative then Some(-magnitude)
    else Some(magnitude)
  }

  /** `parseInt(String(n), 10) === n`: the round trip the form relies on when
      a numeric sector id travels through a string-valued select. */
  lemma ParseIntIntToString(n: int)
    ensures ParseInt(IntToString(n)) == Some(n)
  {
    var m: nat := if n < 0 then -n else n;
    NatToStringDenotes(m);
    var digits := NatToString(m);
    DigitPrefixOfDigits(digits);
    var s := IntToString(n);
    if n < 0 {
      assert s == "-" + digits;
      assert s[0] == '-' && s[1..] == digits;
    } else {
      assert s == digits;
      assert IsDigit(s[0]);
    }
    assert !IsJsWhiteSpace(s[0]);
    assert TrimStart(s) == s;
  }

  /** A string made only of digits is its own longest digit prefix. */
  lemma {:induction false} DigitPrefixOfDigits(d: string)
    requires AllDigits(d)
    ensures DigitPrefix(d) == d
  {
    if d != [] {
      DigitPrefixOfDigits(d[1..]);
      assert d == [d[0]] + d[1..];
    }
  }

  // ---------------------------------------------------------------------
  // Title comparator

  /** Lexicographic order on code points: `a` sorts no later than `b`. */
  predicate StrLeq(a: string, b: string)
    decreases |a|
  {
    a == [] || (b != [] && (a[0] < b[0] || (a[0] == b[0] && StrLeq(a[1..], b[1..]))))
  }

  lemma {:induction false} StrLeqTotal(a: string, b: string)
    ensures StrLeq(a, b) || StrLeq(b, a)
    decreases |a|
  {
    if a != [] && b != [] && a[0] == b[0] {
      StrLeqTotal(a[1..], b[1..]);
    }
  }

  lemma {:induction false} StrLeqTransitive(a: string, b: string, c: string)
    requires StrLeq(a, b) && StrLeq(b, c)
    ensures StrLeq(a, c)
    decreases |a|
  {
    if a != [] && a[0] == b[0] && b[0] == c[0] {
      StrLeqTransitive(a[1..], b[1..], c[1..]);
    }
  }

  lemma {:induction false} StrLeqAntisymmetric(a: string, b: string)
    requires StrLeq(a, b) && StrLeq(b, a)
    ensures a == b
    decreases |a|
  {
    if a != [] {
      StrLeqAntisymmetric(a[1..], b[1..]);
      assert a == [a[0]] + a[1..];
      assert b == [b[0]] + b[1..];
    }
  }
}

=== FILE: types.dfy ===
/** The joined read view of a proposal shown by the list and the card. */
module Types {
  import opened Wrappers

  datatype Region = Region(name: string)

  /** The submitting citizen, with the region join (nullable). */
  datatype CitizenInfo = CitizenInfo(name: string, region: Option<Region>)

  datatype SectorInfo = SectorInfo(name: string)

  /** The theme, with the sector join (nullable). */
  datatype SubcategoryInfo = SubcategoryInfo(name: string, sector: Option<SectorInfo>)

  /** A proposal joined with its citizen and subcategory. `createdAt` is the
      creation instant as a millisecond timestamp. */
  datatype ProposalWithDetails = ProposalWithDetails(
    id: string,
    createdAt: int,
    title: string,
    description: string,
    citizen: Option<CitizenInfo>,
    subcategory: Option<SubcategoryInfo>)

  /** `subcategory?.sector?.name`: absent when either join is null. */
  function SectorNameOf(p: ProposalWithDetails): (r: Option<string>)
    ensures r.Some? <==> p.subcategory.Some? && p.subcategory.value.sector.Some?
    ensures r.Some? ==> r.value == p.subcategory.value.sector.value.name
  {
    match p.subcategory
    case None => None
    case Some(sc) =>
      match sc.sector
      case None => None
      case Some(s) => Some(s.name)
  }
}

=== FILE: wrappers.dfy ===
/** Failure-compatible wrappers: `Option` models a nullable value, `Result`
    an operation that either yields a value or fails with an error. */
module Wrappers {

  /** A value that may be absent (`null` / `undefined` in the source). */
  datatype Option<+T> = None | Some(value: T) {

    /** The value, or `default` when absent (the source's `?? default`). */
    function GetOr(default: T): (r: T) {
      match this
      case Some(v) => v
      case None => default
    }
  }

  /** Either a value or an error. */
  datatype Result<+R, +E> = Success(value: R) | Failure(error: E)
}
